=== FILE: README.md ===
# AI Wiki Quiz Generator — a Dafny model

The AI Wiki Quiz Generator turns a Wikipedia article into a multiple-choice
quiz. The backend scrapes the article, asks a language model (Gemini) for a
quiz, and falls back to a deterministic generator when no key is configured
or the call fails. It always regenerates the study summary, backfills
missing schema keys and stores the result in a `quizzes` table that later
requests for the same URL may reuse. The front end lets a reader pick one
option per question and counts the correct picks.

This project models that core as pure Dafny functions and proves what they
guarantee:

- `Text`: the Python string operations the generator uses. These are
  `strip`, `split(sep)`, `split()`, `join`, `lower`, slicing, `in` and
  `find`, all on ASCII.
- `Segmenter`: paragraphs (`split("\n\n")`, stripped, longer than 50) and
  sentences (`split('.')`, stripped, 21–199 characters).
- `KeyTerms`: the `\b[A-Z][a-z]+(?:\s+[A-Z][a-z]+)*\b` scan that
  `re.findall` performs, the length and title filter, `dict.fromkeys`
  de-duplication and the limit of 15.
- `Questions`: the fifteen templates, the keyword classifier, the
  twelve-word answer, the distractors and the templated options.
- `Digest`: the overview, the key points and the two summaries of the
  fallback generator.
- `Json` and `QuizJson`: JSON values, `len`, `dict.get`, and the quiz's JSON
  shape with its decoder.
- `Cleanup`: the cleanup of a model-written study summary. It removes
  `**`, strips every line and turns a `* ` bullet into `- `.
- `Generator`: `_fallback_generate`, `generate_quiz_with_llm`,
  `_generate_study_summary_with_ai` and `generate_quiz`, with the language
  model as a parameter.
- `Api`: `POST /generate_quiz` and `GET /quiz/{id}` over a table modelled
  as a sequence of rows.
- `Score`: answer selection and `getScore` of the quiz view.

The model keeps these behaviours of the code, which a reader of its
documentation might not expect:

- The options of a content question can repeat. If a sentence is exactly
  "It represents theoretical concepts not yet practically applied", its
  answer equals one of the fixed distractors.
- The keyword classifier tests substrings, so "This" counts as containing
  "is" (`Questions.ClassifierMatchesSubstrings`).
- A missing `summary` is backfilled from `text.split("\n\n")[0][:400]`.
  This is the first raw piece, not the first kept paragraph.
- The study summary used without a key still contains the `**` markers.
  The cleanup only runs on model output (`Generator.NoKeySummaryKeepsMarkers`).
- A failing study-summary call is not caught. The generation then fails as
  a whole, and the endpoint answers 500 even when the quiz came from the
  fallback (`Generator.SummaryFailurePropagates`).
- The cache reads only the first row for a URL. A stale first row shadows
  every later row, so every request for that URL regenerates and appends a
  row (`Api.StaleRowShadows`).
- The score uses `===`. A question whose object has no `answer` and that is
  left unanswered counts as correct (`Score.NothingSelected`).

## Model

| member | source | states |
|---|---|---|
| Text.Strip | backend/llm_quiz_generator.py:23 | `s.strip()` is a slice of `s` with no whitespace at either end and only whitespace cut on both sides |
| Text.StripLacks | backend/llm_quiz_generator.py:281 | stripping a line cannot create an occurrence of a pattern the line lacks |
| Text.StripStripped | backend/llm_quiz_generator.py:281 | stripping a string that is already stripped changes nothing |
| Text.JoinSplit | backend/llm_quiz_generator.py:278-286 | joining the pieces of `s.split(sep)` with `sep` gives `s` back |
| Text.SplitPiecesLackSeparator | backend/llm_quiz_generator.py:23 | no piece of `s.split(sep)` contains `sep` |
| Text.SplitCharCount | backend/llm_quiz_generator.py:278 | splitting on one character yields one more piece than the character occurs |
| Text.SplitJoinChar | backend/llm_quiz_generator.py:278-286 | pieces free of `c`, joined with `c` and split on `c`, come back unchanged |
| Text.Lower | backend/llm_quiz_generator.py:60 | `lower()` keeps the length, moves each upper-case letter up by 32 to its lower-case letter, and leaves every other character as it is |
| Text.JoinContains | backend/llm_quiz_generator.py:42 | every piece joined into a string occurs in it |
| Text.Words | backend/llm_quiz_generator.py:106 | every item of `split()` is a non-empty run without whitespace |
| Text.WordsJoinSpace | backend/llm_quiz_generator.py:106-107 | words joined by single spaces split back into the same words |
| Text.WordsEmpty | backend/llm_quiz_generator.py:106 | the empty text has no words |
| Text.WordsSplitAtSpace | backend/llm_quiz_generator.py:106 | a whitespace character separates the words before it from those after it |
| Segmenter.KeepStrippedMembers | backend/llm_quiz_generator.py:23 | a string is kept exactly when it is some piece, stripped, whose length the filter admits |
| Segmenter.Paragraphs | backend/llm_quiz_generator.py:23 | paragraphs are stripped, longer than 50 characters, free of blank lines, and exactly the admitted stripped pieces of `split("\n\n")` |
| Segmenter.Sentences | backend/llm_quiz_generator.py:52 | sentences are stripped, 21 to 199 characters long, free of '.', and exactly the admitted stripped pieces of `split('.')` |
| Segmenter.KeepStrippedAppend | backend/llm_quiz_generator.py:23-52 | filtering the stripped pieces of two lists one after the other gives the filtered first list followed by the filtered second, so paragraphs and sentences keep text order |
| Segmenter.KeepStrippedOne | backend/llm_quiz_generator.py:23-52 | a single piece is kept, stripped, exactly when the filter admits its stripped length |
| Segmenter.EmptyTextHasNoSegments | backend/llm_quiz_generator.py:23-52 | an empty article has no paragraph and no sentence |
| KeyTerms.MatchAt | backend/llm_quiz_generator.py:59 | a match found at `p` starts after a non-word character, is one or more capitalised words `[A-Z][a-z]+` separated by runs of whitespace (every adjacent pair of characters is upper then lower, lower then lower or whitespace, or whitespace then whitespace or upper), and ends at a word boundary |
| KeyTerms.Chain | backend/llm_quiz_generator.py:59 | the repetition after a word ends on a lower-case letter and keeps the phrase shape; the end before the last repetition, when there is one, is followed by whitespace |
| KeyTerms.Scan | backend/llm_quiz_generator.py:59 | the scan reports matches from left to right that do not overlap |
| KeyTerms.FindAll | backend/llm_quiz_generator.py:59 | every text `findall` returns is a match in the sentence, starting upper-case and ending lower-case |
| KeyTerms.Admitted | backend/llm_quiz_generator.py:60 | a word is kept exactly when it is longer than 3 and differs from the title ignoring case |
| KeyTerms.AdmittedAppend | backend/llm_quiz_generator.py:60 | the filter keeps the words in input order: filtering two lists one after the other is filtering their concatenation |
| KeyTerms.AdmittedOne | backend/llm_quiz_generator.py:60 | a single word is kept exactly when it is admissible |
| KeyTerms.Flatten | backend/llm_quiz_generator.py:57-61 | a string is in the concatenated lists exactly when one of the lists holds it |
| KeyTerms.Candidates | backend/llm_quiz_generator.py:57-61 | a string is a candidate exactly when it is among the admitted matches of some sentence; every candidate is admissible and matched in one of the sentences |
| KeyTerms.FlattenAppend | backend/llm_quiz_generator.py:57-61 | concatenating the lists keeps their order: the lists of a first run come before those of a second |
| KeyTerms.CandidatesAppend | backend/llm_quiz_generator.py:57-61 | the candidates of two runs of sentences are those of the first run followed by those of the second, so sentence order is kept |
| KeyTerms.CandidatesOne | backend/llm_quiz_generator.py:57-61 | the candidates of one sentence are its admitted matches in match order |
| KeyTerms.Dedup | backend/llm_quiz_generator.py:63 | `dict.fromkeys` keeps each element once, loses none, and keeps first-occurrence order |
| KeyTerms.Extract | backend/llm_quiz_generator.py:55-63 | at most 15 distinct key terms, each admissible and matched in one of the first eight sentences |
| KeyTerms.ExtractKeepsFirstSeen | backend/llm_quiz_generator.py:57-63 | the key terms are a prefix of the de-duplicated candidates of length 15, or all of them when there are fewer, so they are exactly the first 15 distinct candidates in first-found order |
| Questions.FromTemplate | backend/llm_quiz_generator.py:66-82 | every filled template names the title |
| Questions.Classify | backend/llm_quiz_generator.py:89-100 | a sentence is descriptive exactly when its lower case contains one of "is", "was", "are", "were"; usage exactly when it contains none of those and one of "used", "apply", "application"; historical exactly when it contains none of those and one of "develop", "create", "invent"; general otherwise |
| Questions.MentionsIff | backend/llm_quiz_generator.py:90-96 | a keyword list is mentioned exactly when one of its listed keywords occurs |
| Questions.QuestionText | backend/llm_quiz_generator.py:89-102 | the question text names the title; each keyword kind gets its own fixed question about the title, and a sentence with no keyword gets the template of slot `i` |
| Questions.ClassifierMatchesSubstrings | backend/llm_quiz_generator.py:90 | "This" is classified as descriptive because "is" occurs inside it |
| Questions.AnswerWords | backend/llm_quiz_generator.py:106-107 | the answer (`CorrectAnswer`) splits back into the sentence's words, or into its first twelve with "..." attached to the last |
| Questions.EllipsisWords | backend/llm_quiz_generator.py:106-107 | twelve words joined with "..." appended split into the first eleven and the twelfth carrying the ellipsis |
| Questions.EllipsisIffLong | backend/llm_quiz_generator.py:107 | for a sentence without '.', the answer (`CorrectAnswer`) ends in "..." exactly when the sentence has more than twelve words |
| Questions.ShortAnswerLacksDot | backend/llm_quiz_generator.py:107 | a sentence of at most twelve words without '.' gives an answer without '.' |
| Questions.DistractorChoice | backend/llm_quiz_generator.py:110-123 | key-term distractors are used exactly when `i < len(key_terms)` and there are more than three key terms |
| Questions.KeyTermDistractorsName | backend/llm_quiz_generator.py:112-116 | the distractors name the key terms at `i`, `i+1` and `i+2`, wrapping around |
| Questions.KeyTermDistractorsDiffer | backend/llm_quiz_generator.py:110-116 | with distinct key terms, the three key terms named are different and the first is `key_terms[i]` |
| Questions.TitleDistractorsName | backend/llm_quiz_generator.py:119-123 | the first and the third fixed distractor name the lower-cased title |
| Questions.TemplateOptionsNameTerms | backend/llm_quiz_generator.py:135-141 | templated options name the first four key terms where they exist |
| Questions.TemplateOptionsNameTitle | backend/llm_quiz_generator.py:142-149 | without key terms, all four templated options name the title |
| Questions.Slot | backend/llm_quiz_generator.py:84-153 | every question has four options, the first being the answer, and names the title; a content slot's question is the classified question text of sentence `i` and its answer is the sentence's twelve-word answer followed by the slot's distractors, and a templated slot uses template `i mod 15` with the templated options |
| Questions.FallbackQuestions | backend/llm_quiz_generator.py:84-153 | exactly `question_count` questions, question `k` being slot `k` |
| Digest.KeyPoint | backend/llm_quiz_generator.py:35-39 | a key point comes from a paragraph longer than 100, is longer than 20, stripped, free of '.', and occurs in the paragraph |
| Digest.KeyPointIff | backend/llm_quiz_generator.py:35-39 | a paragraph yields a key point exactly when it is longer than 100 and its stripped first sentence longer than 20; the key point is the stripped text before the first '.', or the whole paragraph stripped when it has none |
| Digest.KeyPointsMembers | backend/llm_quiz_generator.py:33-39 | a string is a key point exactly when some paragraph contributes it |
| Digest.KeyPointsAppend | backend/llm_quiz_generator.py:33-39 | the key points of two runs of paragraphs are those of the first run followed by those of the second, so paragraph order is kept |
| Digest.KeyPointsOne | backend/llm_quiz_generator.py:33-39 | a single paragraph gives its key point when it has one, and nothing otherwise |
| Digest.Overview | backend/llm_quiz_generator.py:29 | the overview is at most 417 characters long and holds the first 400 of the paragraph |
| Digest.SummaryParts | backend/llm_quiz_generator.py:26-42 | there are no parts exactly when there is no paragraph; the first part is the overview; a second part exists exactly when there are key points, and it quotes every key point |
| Digest.SectionContains | backend/llm_quiz_generator.py:42 | the key-points section contains each key point joined into it |
| Digest.KeyPointsSection | backend/llm_quiz_generator.py:32-42 | the key-points section exists exactly when one of paragraphs 1 to 3 yields a key point |
| Digest.SummaryOpensStudySummary | backend/llm_quiz_generator.py:45-157 | with a paragraph, the summary (`Summary`) is the overview and the study summary (`StudySummary`) begins with it |
| Digest.NoParagraphSummaries | backend/llm_quiz_generator.py:45-157 | without a paragraph, the summary is "Information about " followed by the title and the study summary is "This article provides comprehensive information about " followed by the title and "."; both name the title |
| Digest.SummaryTexts | backend/llm_quiz_generator.py:29-45 | with a paragraph, the summary is "**Overview**: " with the first 400 characters of the first paragraph and "..."; the study summary is that overview alone without key points, and otherwise the overview, a blank line, and "**Key Points**: " with the key points joined by a spaced vertical bar |
| Digest.SummaryKeyPointsWindow | backend/llm_quiz_generator.py:32-42 | the key points are those of `paras[1:4]`, none with at most one paragraph; the cut to three never drops one |
| Json.PyLen | backend/main.py:76 | `len` is defined exactly for strings, lists and dicts, and gives a list's item count |
| Json.Get | backend/main.py:76 | `get` gives the stored value when the key is present and the default otherwise |
| Json.StringsRoundTrip | backend/llm_quiz_generator.py:153 | a list of strings encoded as a JSON array decodes back to the same list |
| Json.StringsOfRejects | backend/llm_quiz_generator.py:153 | one non-string item makes decoding a list of strings fail |
| QuizJson.QuestionRoundTrip | backend/llm_quiz_generator.py:153 | a question encoded as a JSON object decodes back to the same question |
| QuizJson.QuestionsRoundTrip | backend/llm_quiz_generator.py:153 | a list of questions encoded as a JSON array decodes back to the same list |
| QuizJson.QuizRoundTrip | backend/llm_quiz_generator.py:155-160 | the fallback quiz encoded as JSON decodes back to the same quiz |
| Cleanup.NoDoubleStarIff | backend/llm_quiz_generator.py:275 | no two adjacent asterisks holds exactly when "**" does not occur |
| Cleanup.RemoveDoubleStar | backend/llm_quiz_generator.py:275 | `replace('**', '')` leaves no "**", keeps a first character that is not '*', and keeps every newline |
| Cleanup.RemoveDoubleStarKeeps | backend/llm_quiz_generator.py:275 | text without "**" is left unchanged |
| Cleanup.RemoveDoubleStarFirst | backend/llm_quiz_generator.py:275 | the removal keeps the text before the first "**" unchanged, drops that pair, and goes on after it; text without "**" is unchanged |
| Cleanup.CleanLine | backend/llm_quiz_generator.py:280-284 | a line is stripped, and a stripped line starting with "* " has those two characters replaced by "- "; the result is stripped and does not start with "* "; a line without newlines or "**" stays without them |
| Cleanup.CleanLineIdempotent | backend/llm_quiz_generator.py:280-284 | cleaning a cleaned line changes nothing |
| Cleanup.CleanedLines | backend/llm_quiz_generator.py:275-285 | cleaned line `i` is line `i` of the text with every "**" removed, cleaned; there are as many as the text has lines, each free of newlines and of "**" |
| Cleanup.Clean | backend/llm_quiz_generator.py:271-286 | the cleaned text contains no "**" |
| Cleanup.CleanLinesOf | backend/llm_quiz_generator.py:278-286 | the cleaned text splits back into the cleaned lines: as many as the text had, each stripped and none starting with "* " |
| Cleanup.CleanIdempotent | backend/llm_quiz_generator.py:271-286 | cleaning twice is cleaning once |
| Cleanup.CleanFixpoint | backend/llm_quiz_generator.py:271-286 | text without "**" whose every line is stripped and does not start with "* " is left unchanged |
| Cleanup.SplitPieceInside | backend/llm_quiz_generator.py:278 | every line of a split occurs in the split text |
| Generator.FallbackGenerate | backend/llm_quiz_generator.py:17-160 | the fallback quiz keeps the title and has exactly `question_count` well-formed questions |
| Generator.NoSentenceQuestions | backend/llm_quiz_generator.py:129-132 | without sentences, every one of the `question_count` questions is templated from slot `k mod 15` |
| Generator.ModelText | backend/llm_quiz_generator.py:224 | the model sees a prefix of the text of at most 1500 characters |
| Generator.LlmOutcome | backend/llm_quiz_generator.py:163-234 | the outcome of `GenerateWithLlm`: without a key or when the call fails, the result decodes to the fallback quiz with `question_count` questions; otherwise it is the model's answer unchanged |
| Generator.StudySummaryWithAi | backend/llm_quiz_generator.py:237-291 | the study summary fails exactly when there is a key and the model call fails; model text is returned cleaned and free of "**" |
| Generator.NoKeySummaryKeepsMarkers | backend/llm_quiz_generator.py:242-243 | the study summary used without a key contains "**" |
| Generator.BackfillSummary | backend/llm_quiz_generator.py:312 | the backfilled summary is a prefix of the text of at most 400 characters holding no blank line |
| Generator.BackfillSummaryFirstBlock | backend/llm_quiz_generator.py:312 | the backfilled summary is the first 400 characters of the text before its first blank line, or of the whole text when it has none |
| Generator.Backfill | backend/llm_quiz_generator.py:309-316 | after the backfill the quiz has its own keys plus the four schema keys |
| Generator.BackfillFields | backend/llm_quiz_generator.py:309-316 | title and summary are filled only when missing, the study summary is always replaced, questions that are missing or not a list become `[]`, and other keys are untouched |
| Generator.BackfillComplete | backend/llm_quiz_generator.py:309-316 | on a quiz that has every schema key and a list of questions, the backfill only replaces the study summary |
| Generator.GenerateQuiz | backend/llm_quiz_generator.py:294-318 | a successful generation is a JSON object holding the four schema keys |
| Generator.NoKeyQuiz | backend/llm_quiz_generator.py:294-318 | without a key, the result decodes to the fallback quiz with the fixed study summary, holding 15 questions when extra ones are asked for and 10 otherwise |
| Generator.SummaryFailurePropagates | backend/llm_quiz_generator.py:314 | a failing study-summary call fails the generation |
| Generator.NonObjectFails | backend/llm_quiz_generator.py:306-310 | a model answer that is not an object fails the generation |
| Generator.KeyedQuiz | backend/llm_quiz_generator.py:294-318 | with a key, an object answer and a successful study-summary call, the result is that answer backfilled with the cleaned model study summary |
| Generator.GenerateQuizFails | backend/llm_quiz_generator.py:294-318 | the generation fails exactly when the generated value is not an object, or a key is set and the study-summary call fails |
| Api.FirstByUrl | backend/main.py:69-70 | the row found is the first one for the URL; `None` means no row has it |
| Api.CacheHit | backend/main.py:71-80 | a cached quiz is the parsed payload: an object with a study summary and exactly the requested number of questions |
| Api.CacheHitIff | backend/main.py:71-80 | a stored row answers a request exactly when its payload parses to an object with a study summary and the requested question count |
| Api.CountMismatchMisses | backend/main.py:75-77 | a stored quiz with 10 questions never answers a request for 15, and one with 15 never answers a request for 10 |
| Api.GenerateEndpoint | backend/main.py:62-108 | a request leaves the table unchanged or appends one row; an error is 400 or 500 and leaves the table unchanged |
| Api.HitOutcome | backend/main.py:71-78 | a hit answers with the stored quiz and the row's id, marked cached, and stores nothing |
| Api.MissOutcome | backend/main.py:96-108 | a fresh answer is the quiz generated from the scraped page; it appends one row for the URL, under the answer's id, whose payload reads back as the quiz returned |
| Api.FailureOutcome | backend/main.py:82-94 | after a miss, a failing scrape answers 400 and a failing generation answers 500, and neither stores anything |
| Api.FirstByUrlAppend | backend/main.py:69 | appending rows does not change the first row of a URL that already has one |
| Api.FirstByUrlNew | backend/main.py:69 | the row appended for a new URL becomes the first row for it |
| Api.StaleRowShadows | backend/main.py:68-108 | when the first row for a URL cannot answer, the request is not served from the cache and that row stays first and still cannot answer |
| Api.RepeatHits | backend/main.py:62-108 | without a key, a new URL is generated once; the next identical request is answered from the cache with the same quiz and id |
| Api.QuestionsLength | backend/main.py:75-77 | without a key, the generated quiz's `questions` has the length the cache check expects |
| Api.FindById | backend/main.py:122-123 | the row found has the id; `None` means no row has it |
| Api.StoredQuiz | backend/main.py:127-130 | an empty payload reads as `{}` and one that does not parse reads as `{"title": title}` |
| Api.GetQuiz | backend/main.py:119-139 | the answer is not found exactly when no row has the id, and a found answer carries that id |
| Api.FindByIdNew | backend/main.py:122 | a row appended under an unused id is the row found for it |
| Api.StoredQuizReadsBack | backend/main.py:97-139 | a freshly generated quiz stored under an unused id is read back unchanged, with its URL |
| Score.Lookup | frontend/src/components/QuizDisplay.jsx:28 | a selection is defined exactly for the questions answered |
| Score.SelectOption | frontend/src/components/QuizDisplay.jsx:17-22 | selecting an option sets that question's selection and leaves every other question's as it was |
| Score.LaterSelectionReplaces | frontend/src/components/QuizDisplay.jsx:17-22 | a later selection for the same question replaces the earlier one |
| Score.Flags | frontend/src/components/QuizDisplay.jsx:50-52 | there is one flag per question, and flag `i` tells whether the selection equals the answer |
| Score.CountTrueIsCorrectIndices | frontend/src/components/QuizDisplay.jsx:24-31 | the number of true flags is the number of correctly answered questions |
| Score.GetScore | frontend/src/components/QuizDisplay.jsx:24-31 | the score is the number 0 exactly when the quiz has no `questions` key (an empty list scores 0 of 0); otherwise the total is the question count and the correct count is the number of correctly answered questions, never more than the total |
| Score.SelectingAnswerFlags | frontend/src/components/QuizDisplay.jsx:17-28 | choosing a question's answer flags it correct and leaves every other flag as it was |
| Score.NothingSelected | frontend/src/components/QuizDisplay.jsx:28 | with nothing selected, exactly the questions lacking an answer count as correct |

## Left out

- The language model itself is a parameter: a key flag and two call results, `None` where a call raises. The prompts, LangChain, the pydantic schema and the Gemini client are not modelled, and neither is validation of the model's JSON, which the source does not do either.
- `print` and the front end's `console.log` calls are not modelled.
- Character handling is ASCII only. Unicode `lower()`, Unicode whitespace for `strip()` and `split()`, and Unicode classes in `re` are not modelled.
- The scraper is a parameter returning `None` where it raises. backend/scraper.py is not part of this model.
- FastAPI, CORS, async execution, SQLAlchemy sessions and concurrent requests are not modelled. The `quizzes` table is a sequence of rows, and the id of a new row is a parameter.
- `json.dumps` and `json.loads` are a pair of functions. Where a lemma needs a round trip it requires one. JSON key order, floats and escapes are not modelled.
- `GET /history`, with its paging and ordering by date, is not modelled, and neither is `date_generated`.
- Error detail strings of the HTTP errors are not modelled; only the status codes are.
- Rendering in the front end is not modelled, including the percentage `Math.round((correct/total)*100)`. Non-string answers are not modelled either; an answer is a string or absent.
- KeyTerms.MatchAt: the contract states that a match it returns is a match of the pattern, word by word. It does not state that the match is the longest one or that `None` means no match starts there, although the function is written to compute both.
- KeyTerms.Scan: the contract states that the spans are non-overlapping matches in left-to-right order. It does not state that every match `re.findall` reports is among them.
- KeyTerms.FindAll: the contract inherits the soundness-only statement of KeyTerms.Scan.
- Api.FirstByUrl: the query has no ordering and takes one row. The model takes the earliest row.
- Api.FindById: the first row with the id is taken, which is the only one since ids are the primary key.
- Questions: option lists can contain the same string twice, as noted above. No lemma states this.

=== FILE: api.dfy ===
/**
 The two quiz endpoints of the backend: `POST /generate_quiz`, which reuses
 a stored quiz for the same URL when it fits the request and otherwise
 scrapes, generates and stores a new one, and `GET /quiz/{id}`, which
 decodes a stored quiz.

 The database table is a sequence of records in insertion order; the
 scraper, the generator's language model and the JSON codec are
 parameters.
*/
module Api {
  import opened Wrappers
  import opened Text
  import opened Json
  import opened Generator

  /** A row of the `quizzes` table. `title` holds whatever the quiz's
      "title" was; `payload` is `full_quiz_data`, which may be NULL. */
  datatype Record = Record(id: nat, url: String, title: Json, scraped: String, payload: Option<String>)

  /** The position of the first row for `url`: the query has no ordering and
      takes one row, which is modelled as the earliest. */
  function FirstByUrl(store: seq<Record>, url: String): (r: Option<nat>)
    ensures r.Some? ==> r.value < |store| && store[r.value].url == url
    ensures r.Some? ==> forall j :: 0 <= j < r.value ==> store[j].url != url
    ensures r.None? ==> forall j :: 0 <= j < |store| ==> store[j].url != url
    decreases |store|
  {
    if |store| == 0 then None
    else if store[0].url == url then Some(0)
    else match FirstByUrl(store[1..], url)
      case None => None
      case Some(k) => Some(k + 1)
  }

  /** `existing.full_quiz_data` is truthy: present and non-empty. */
  predicate HasPayload(rec: Record) {
    rec.payload.Some? && |rec.payload.value| > 0
  }

  /** The stored quiz of `rec` when it may answer a request: the payload
      parses to an object, its `questions` (default `[]`) has the requested
      length and it has a `study_summary`. A payload that does not parse,
      is not an object or whose `questions` has no length raises inside the
      `try`, which is a miss too. */
  function CacheHit(codec: Codec, rec: Record, extraQuestions: bool): (r: Option<Json>)
    ensures r.Some? ==> HasPayload(rec) && codec.loads(rec.payload.value) == r
    ensures r.Some? ==> r.value.JObj? && "study_summary" in r.value.fields
    ensures r.Some? ==> PyLen(Get(r.value.fields, "questions", JArr([]))) == Some(QuestionCount(extraQuestions))
  {
    if !HasPayload(rec) then None
    else match codec.loads(rec.payload.value)
      case None => None
      case Some(v) =>
        if !v.JObj? then None
        else if PyLen(Get(v.fields, "questions", JArr([]))) != Some(QuestionCount(extraQuestions)) then None
        else if "study_summary" !in v.fields then None
        else Some(v)
  }

  /** A stored quiz answers a request exactly when it parses to an object
      with a `study_summary` whose `questions` has the requested length. */
  lemma CacheHitIff(codec: Codec, rec: Record, extraQuestions: bool)
    ensures CacheHit(codec, rec, extraQuestions).Some? <==>
      && HasPayload(rec)
      && var v := codec.loads(rec.payload.value);
      && v.Some? && v.value.JObj? && "study_summary" in v.value.fields
      && PyLen(Get(v.value.fields, "questions", JArr([]))) == Some(QuestionCount(extraQuestions))
  {
  }

  /** A stored quiz with 10 questions never answers a request for extra
      questions, and one with 15 never answers a plain request. */
  lemma CountMismatchMisses(codec: Codec, rec: Record)
    requires HasPayload(rec)
    requires var v := codec.loads(rec.payload.value); v.Some? && v.value.JObj?
    ensures var f := codec.loads(rec.payload.value).value.fields;
      var n := PyLen(Get(f, "questions", JArr([])));
      && (n == Some(10) ==> CacheHit(codec, rec, true).None?)
      && (n == Some(15) ==> CacheHit(codec, rec, false).None?)
  {
  }

  /** The answer of `POST /generate_quiz`. */
  datatype Response = Ok(quiz: Json, id: nat, cached: bool) | HttpError(status: nat)

  /** A response and the table after the request. */
  datatype Outcome = Outcome(response: Response, store: seq<Record>)

  /** The request's services: the codec, the generator's model, the
      scraper (`None` where it raises) and the id the database assigns to
      a new row. */
  datatype Env = Env(codec: Codec, svc: Services, scrape: String -> Option<(String, String)>, newId: nat)

  /** `generate_quiz_endpoint`. */
  function GenerateEndpoint(env: Env, store: seq<Record>, url: String, extraQuestions: bool): (o: Outcome)
    ensures o.store == store || (|o.store| == |store| + 1 && o.store[..|store|] == store)
    ensures o.response.HttpError? ==> o.response.status in {400, 500} && o.store == store
  {
    var first := FirstByUrl(store, url);
    var hit := if first.Some? then CacheHit(env.codec, store[first.value], extraQuestions) else None;
    if hit.Some? then Outcome(Ok(hit.value, store[first.value].id, true), store)
    else match env.scrape(url)
      case None => Outcome(HttpError(400), store)
      case Some(page) =>
        var (title, text) := page;
        match GenerateQuiz(env.svc, title, text, extraQuestions)
        case None => Outcome(HttpError(500), store)
        case Some(q) =>
          var rec := Record(env.newId, url, Get(q.fields, "title", JStr(title)), text, Some(env.codec.dumps(q)));
          assert (store + [rec])[..|store|] == store;
          Outcome(Ok(q, env.newId, false), store + [rec])
  }

  /** A hit answers with the first stored row's quiz, unchanged, marked as
      cached, and stores nothing. */
  lemma HitOutcome(env: Env, store: seq<Record>, url: String, extraQuestions: bool)
    requires var first := FirstByUrl(store, url);
      first.Some? && CacheHit(env.codec, store[first.value], extraQuestions).Some?
    ensures var i := FirstByUrl(store, url).value;
      GenerateEndpoint(env, store, url, extraQuestions)
        == Outcome(Ok(env.codec.loads(store[i].payload.value).value, store[i].id, true), store)
  {
  }

  /** On a miss the answer is the quiz freshly generated from the scraped
      page, not cached, and the new row holds its serialisation, from which
      the codec recovers it. */
  lemma MissOutcome(env: Env, store: seq<Record>, url: String, extraQuestions: bool)
    requires RoundTrips(env.codec)
    requires var o := GenerateEndpoint(env, store, url, extraQuestions);
      o.response.Ok? && !o.response.cached
    ensures var o := GenerateEndpoint(env, store, url, extraQuestions);
      && |o.store| == |store| + 1
      && var rec := o.store[|store|];
      && rec.url == url && rec.id == o.response.id
      && rec.payload == Some(env.codec.dumps(o.response.quiz))
      && env.codec.loads(rec.payload.value) == Some(o.response.quiz)
      && env.scrape(url).Some?
      && o.response.quiz ==
           GenerateQuiz(env.svc, env.scrape(url).value.0, env.scrape(url).value.1, extraQuestions).value
  {
  }

  /** A failing scrape answers 400 and a failing generation 500, storing
      nothing in both cases. */
  lemma FailureOutcome(env: Env, store: seq<Record>, url: String, extraQuestions: bool)
    requires var first := FirstByUrl(store, url);
      first.None? || CacheHit(env.codec, store[first.value], extraQuestions).None?
    ensures var o := GenerateEndpoint(env, store, url, extraQuestions);
      && (env.scrape(url).None? ==> o == Outcome(HttpError(400), store))
      && ((env.scrape(url).Some? && GenerateQuiz(env.svc, env.scrape(url).value.0, env.scrape(url).value.1, extraQuestions).None?)
            ==> o == Outcome(HttpError(500), store))
  {
  }

  /** Appending rows does not change which row is first for a URL that
      already has one. */
  lemma {:induction false} FirstByUrlAppend(store: seq<Record>, rec: Record, url: String)
    requires FirstByUrl(store, url).Some?
    ensures FirstByUrl(store + [rec], url) == FirstByUrl(store, url)
    decreases |store|
  {
    if store[0].url != url {
      assert (store + [rec])[1..] == store[1..] + [rec];
      FirstByUrlAppend(store[1..], rec, url);
    }
  }

  /** A new URL's row is the first for it once appended. */
  lemma FirstByUrlNew(store: seq<Record>, rec: Record, url: String)
    requires FirstByUrl(store, url).None? && rec.url == url
    ensures FirstByUrl(store + [rec], url) == Some(|store|)
  {
    var s := store + [rec];
    assert forall j :: 0 <= j < |store| ==> s[j] == store[j];
    assert s[|store|] == rec;
  }

  /** A stale first row shadows every later row for its URL: when it does
      not fit a request, the request regenerates, and it still does not fit
      the same request after the fresh row is stored, so every repetition
      regenerates again. */
  lemma StaleRowShadows(env: Env, store: seq<Record>, url: String, extraQuestions: bool)
    requires var first := FirstByUrl(store, url);
      first.Some? && CacheHit(env.codec, store[first.value], extraQuestions).None?
    ensures var o := GenerateEndpoint(env, store, url, extraQuestions);
      && !(o.response.Ok? && o.response.cached)
      && FirstByUrl(o.store, url) == FirstByUrl(store, url)
      && CacheHit(env.codec, o.store[FirstByUrl(o.store, url).value], extraQuestions).None?
  {
    var o := GenerateEndpoint(env, store, url, extraQuestions);
    if o.store != store {
      var rec := o.store[|store|];
      assert o.store == store + [rec];
      FirstByUrlAppend(store, rec, url);
      assert o.store[FirstByUrl(store, url).value] == store[FirstByUrl(store, url).value];
    }
  }

  /** Without a language-model key, a request for a URL that has no row
      yet is stored, and repeating it is answered from the table with the
      same quiz. */
  lemma RepeatHits(env: Env, env2: Env, store: seq<Record>, url: String, extraQuestions: bool)
    requires RoundTrips(env.codec) && forall v :: |env.codec.dumps(v)| > 0
    requires env2.codec == env.codec
    requires !env.svc.hasKey && FirstByUrl(store, url).None? && env.scrape(url).Some?
    ensures var o := GenerateEndpoint(env, store, url, extraQuestions);
      && o.response.Ok? && !o.response.cached
      && var o2 := GenerateEndpoint(env2, o.store, url, extraQuestions);
      && o2 == Outcome(Ok(o.response.quiz, o.response.id, true), o.store)
  {
    var (title, text) := env.scrape(url).value;
    NoKeyQuiz(env.svc, title, text, extraQuestions);
    var q := GenerateQuiz(env.svc, title, text, extraQuestions).value;
    var o := GenerateEndpoint(env, store, url, extraQuestions);
    var rec := Record(env.newId, url, Get(q.fields, "title", JStr(title)), text, Some(env.codec.dumps(q)));
    assert o.store == store + [rec];
    FirstByUrlNew(store, rec, url);
    QuestionsLength(env.svc, title, text, extraQuestions);
    assert CacheHit(env.codec, rec, extraQuestions) == Some(q);
  }

  /** Without a key, the generated quiz's `questions` has the requested
      length. */
  lemma QuestionsLength(svc: Services, title: String, text: String, extraQuestions: bool)
    requires !svc.hasKey
    ensures var q := GenerateQuiz(svc, title, text, extraQuestions);
      q.Some? && PyLen(Get(q.value.fields, "questions", JArr([]))) == Some(QuestionCount(extraQuestions))
  {
    var z := FallbackGenerate(title, text, QuestionCount(extraQuestions));
    NoKeyBackfill(svc, title, text, extraQuestions);
    BackfilledQuestions(z, title, text, NoKeyStudySummary(title));
  }

  /** The metadata `GET /quiz/{id}` returns besides the quiz. */
  datatype Meta = Meta(id: nat, url: String, title: Json)

  /** The answer of `GET /quiz/{id}`. */
  datatype QuizResponse = NotFound | Found(quiz: Json, meta: Meta)

  /** The position of the row with `id`; ids are the table's primary key. */
  function FindById(store: seq<Record>, id: nat): (r: Option<nat>)
    ensures r.Some? ==> r.value < |store| && store[r.value].id == id
    ensures r.None? ==> forall j :: 0 <= j < |store| ==> store[j].id != id
    decreases |store|
  {
    if |store| == 0 then None
    else if store[0].id == id then Some(0)
    else match FindById(store[1..], id)
      case None => None
      case Some(k) => Some(k + 1)
  }

  /** The quiz of a stored row: `{}` for an empty payload, `{"title": title}`
      for one that does not parse, otherwise whatever it parses to. */
  function StoredQuiz(codec: Codec, rec: Record): (r: Json)
    ensures !HasPayload(rec) ==> r == JObj(map[])
    ensures HasPayload(rec) && codec.loads(rec.payload.value).None? ==> r == JObj(map["title" := rec.title])
  {
    if !HasPayload(rec) then JObj(map[])
    else match codec.loads(rec.payload.value)
      case None => JObj(map["title" := rec.title])
      case Some(v) => v
  }

  /** `get_quiz`. */
  function GetQuiz(codec: Codec, store: seq<Record>, id: nat): (r: QuizResponse)
    ensures r.NotFound? <==> forall j :: 0 <= j < |store| ==> store[j].id != id
    ensures r.Found? ==> r.meta.id == id
  {
    match FindById(store, id)
    case None => NotFound
    case Some(i) =>
      var rec := store[i];
      Found(StoredQuiz(codec, rec), Meta(rec.id, rec.url, rec.title))
  }

  /** A row appended under an unused id is the row found for that id. */
  lemma FindByIdNew(store: seq<Record>, rec: Record)
    requires forall j :: 0 <= j < |store| ==> store[j].id != rec.id
    ensures FindById(store + [rec], rec.id) == Some(|store|)
  {
    var s := store + [rec];
    assert forall j :: 0 <= j < |store| ==> s[j] == store[j];
    assert s[|store|] == rec;
  }

  /** A quiz stored by a fresh generation under an unused id reads back
      unchanged. */
  lemma StoredQuizReadsBack(env: Env, store: seq<Record>, url: String, extraQuestions: bool)
    requires RoundTrips(env.codec) && forall v :: |env.codec.dumps(v)| > 0
    requires forall j :: 0 <= j < |store| ==> store[j].id != env.newId
    requires var o := GenerateEndpoint(env, store, url, extraQuestions);
      o.response.Ok? && !o.response.cached
    ensures var o := GenerateEndpoint(env, store, url, extraQuestions);
      var r := GetQuiz(env.codec, o.store, env.newId);
      r.Found? && r.quiz == o.response.quiz && r.meta.url == url
  {
    var o := GenerateEndpoint(env, store, url, extraQuestions);
    MissOutcome(env, store, url, extraQuestions);
    var rec := o.store[|store|];
    assert o.store == store + [rec];
    FindByIdNew(store, rec);
  }
}

=== FILE: cleanup.dfy ===
/**
 The cleanup applied to a study summary returned by the language model:
 every "**" removed, each line stripped, and a leading "* " bullet turned
 into "- ".
*/
module Cleanup {
  import opened Wrappers
  import opened Text

  /** No two adjacent asterisks. */
  predicate NoDoubleStar(s: String) {
    forall k :: 0 <= k < |s| - 1 ==> !(s[k] == '*' && s[k + 1] == '*')
  }

  /** The character test agrees with the substring test. */
  lemma NoDoubleStarIff(s: String)
    ensures NoDoubleStar(s) <==> !Contains(s, "**")
  {
    if Contains(s, "**") {
      var k := Find(s, "**").value;
      assert s[k..k + 2][0] == s[k] && s[k..k + 2][1] == s[k + 1];
    }
    if !NoDoubleStar(s) {
      var k :| 0 <= k < |s| - 1 && s[k] == '*' && s[k + 1] == '*';
      assert s[k..k + 2] == "**";
      assert OccursAt(s, "**", k);
      ContainsIff(s, "**");
    }
  }

  /** `s.replace('**', '')`: occurrences are removed left to right without
      overlapping, so "***" leaves one asterisk. */
  function RemoveDoubleStar(s: String): (r: String)
    ensures NoDoubleStar(r)
    ensures |s| > 0 && s[0] != '*' ==> |r| > 0 && r[0] == s[0]
    ensures Count(r, '\n') == Count(s, '\n')
    decreases |s|
  {
    if |s| >= 2 && s[0] == '*' && s[1] == '*' then
      var r := RemoveDoubleStar(s[2..]);
      assert Count(s, '\n') == Count(s[2..], '\n') by {
        assert s[1..][1..] == s[2..];
      }
      r
    else if |s| == 0 then []
    else
      var rest := RemoveDoubleStar(s[1..]);
      NoDoubleStarAppend([s[0]], rest);
      assert ([s[0]] + rest)[1..] == rest;
      [s[0]] + rest
  }

  /** Text without "**" is left as it is. */
  lemma {:induction false} RemoveDoubleStarKeeps(s: String)
    requires NoDoubleStar(s)
    ensures RemoveDoubleStar(s) == s
    decreases |s|
  {
    if |s| > 0 {
      assert NoDoubleStar(s[1..]) by {
        forall k | 0 <= k < |s[1..]| - 1 ensures !(s[1..][k] == '*' && s[1..][k + 1] == '*') {
          assert s[1..][k] == s[k + 1] && s[1..][k + 1] == s[k + 2];
        }
      }
      RemoveDoubleStarKeeps(s[1..]);
      assert s == [s[0]] + s[1..];
    }
  }

  /** The removal is the left-to-right rewrite: text before the first "**"
      is kept as it is, the pair is dropped, and the rest is rewritten. */
  lemma RemoveDoubleStarFirst(s: String)
    ensures match Find(s, "**")
      case None => RemoveDoubleStar(s) == s
      case Some(k) => k + 2 <= |s| && RemoveDoubleStar(s) == s[..k] + RemoveDoubleStar(s[k + 2..])
  {
    var f := Find(s, "**");
    if f.None? {
      NoDoubleStarIff(s);
      RemoveDoubleStarKeeps(s);
    } else {
      RemoveDoubleStarAt(s, f.value);
    }
  }

  /** The step of `RemoveDoubleStarFirst` where "**" first occurs at `k`. */
  lemma {:induction false} RemoveDoubleStarAt(s: String, k: nat)
    requires Find(s, "**") == Some(k)
    ensures k + 2 <= |s| && RemoveDoubleStar(s) == s[..k] + RemoveDoubleStar(s[k + 2..])
    decreases k
  {
    assert s[k..k + 2] == "**";
    if k == 0 {
      assert s[0] == s[k..k + 2][0] && s[1] == s[k..k + 2][1];
    } else {
      assert s[..2] != "**";
      var t := s[1..];
      FindTail(s, "**", k);
      RemoveDoubleStarAt(t, k - 1);
      RemoveDoubleStarSkip(s);
      RemoveDoubleStarShift(s, k, RemoveDoubleStar(t), RemoveDoubleStar(s[k + 2..]));
    }
  }

  /** The bookkeeping of `RemoveDoubleStarAt`: one character in front of
      the tail's rewrite. */
  lemma RemoveDoubleStarShift(s: String, k: nat, u: String, v: String)
    requires 0 < k && k + 2 <= |s|
    requires u == s[1..][..k - 1] + v
    ensures [s[0]] + u == s[..k] + v
  {
    assert s[1..][..k - 1] == s[1..k];
    assert s[..k] == [s[0]] + s[1..k];
  }

  /** Where "**" does not open the text, its first character is kept. */
  lemma RemoveDoubleStarSkip(s: String)
    requires |s| >= 2 && s[..2] != "**"
    ensures RemoveDoubleStar(s) == [s[0]] + RemoveDoubleStar(s[1..])
  {
    assert s[..2] == [s[0], s[1]];
  }

  /** A slice of a string without "**" has none either. */
  lemma NoDoubleStarSlice(s: String, a: int, b: int)
    requires 0 <= a <= b <= |s| && NoDoubleStar(s)
    ensures NoDoubleStar(s[a..b])
  {
    forall k | 0 <= k < b - a - 1 ensures !(s[a..b][k] == '*' && s[a..b][k + 1] == '*') {
      assert s[a..b][k] == s[a + k] && s[a..b][k + 1] == s[a + k + 1];
    }
  }

  /** Two strings without "**" concatenate to one without "**" unless an
      asterisk meets an asterisk at the seam. */
  lemma NoDoubleStarAppend(a: String, b: String)
    requires NoDoubleStar(a) && NoDoubleStar(b)
    requires |a| == 0 || |b| == 0 || a[|a| - 1] != '*' || b[0] != '*'
    ensures NoDoubleStar(a + b)
  {
    var s := a + b;
    forall k | 0 <= k < |s| - 1 ensures !(s[k] == '*' && s[k + 1] == '*') {
      if k + 1 < |a| {
        assert s[k] == a[k] && s[k + 1] == a[k + 1];
      } else if k >= |a| {
        assert s[k] == b[k - |a|] && s[k + 1] == b[k + 1 - |a|];
      } else {
        assert s[k] == a[|a| - 1] && s[k + 1] == b[0];
      }
    }
  }

  /** Stripping keeps a line free of newlines and of "**". */
  lemma StripKeeps(line: String)
    ensures '\n' !in line ==> '\n' !in Strip(line)
    ensures NoDoubleStar(line) ==> NoDoubleStar(Strip(line))
  {
    if '\n' !in line {
      StripKeepsOut(line, '\n');
    }
    if NoDoubleStar(line) {
      NoDoubleStarIff(line);
      StripLacks(line, "**");
      NoDoubleStarIff(Strip(line));
    }
  }

  /** Rewriting the bullet of a stripped "* " line keeps it stripped and
      free of newlines and of "**". */
  lemma BulletKeeps(s: String)
    requires IsStripped(s) && StartsWith(s, "* ")
    ensures |s| > 2
    ensures IsStripped("- " + s[2..]) && !StartsWith("- " + s[2..], "* ")
    ensures '\n' !in s ==> '\n' !in "- " + s[2..]
    ensures NoDoubleStar(s) ==> NoDoubleStar("- " + s[2..])
  {
    assert s[1] == ' ';
    var rest := s[2..];
    var r := "- " + rest;
    assert r[0] == '-' && r[|r| - 1] == s[|s| - 1];
    assert forall c :: c in r ==> c == '-' || c == ' ' || c in s;
    if NoDoubleStar(s) {
      NoDoubleStarSlice(s, 2, |s|);
      NoDoubleStarAppend("- ", rest);
    }
  }

  /** One line of the cleanup: stripped, and a leading "* " replaced by "- ". */
  function CleanLine(line: String): (r: String)
    ensures StartsWith(Strip(line), "* ") ==> r == "- " + Strip(line)[2..]
    ensures !StartsWith(Strip(line), "* ") ==> r == Strip(line)
    ensures IsStripped(r) && !StartsWith(r, "* ")
    ensures '\n' !in line ==> '\n' !in r
    ensures NoDoubleStar(line) ==> NoDoubleStar(r)
  {
    var s := Strip(line);
    StripKeeps(line);
    if StartsWith(s, "* ") then
      BulletKeeps(s);
      "- " + s[2..]
    else s
  }

  /** Cleaning a cleaned line changes nothing. */
  lemma CleanLineIdempotent(line: String)
    ensures CleanLine(CleanLine(line)) == CleanLine(line)
  {
    StripStripped(CleanLine(line));
  }

  /** Every line cleaned. */
  function CleanLines(lines: seq<String>): (r: seq<String>)
    ensures |r| == |lines|
    ensures forall i :: 0 <= i < |r| ==> r[i] == CleanLine(lines[i])
  {
    seq(|lines|, i requires 0 <= i < |lines| => CleanLine(lines[i]))
  }

  /** Lines without "**" joined by newlines have no "**". */
  lemma {:induction false} JoinLinesNoDoubleStar(lines: seq<String>)
    requires forall i :: 0 <= i < |lines| ==> NoDoubleStar(lines[i])
    ensures NoDoubleStar(Join(lines, "\n"))
    decreases |lines|
  {
    if |lines| > 1 {
      var rest := Join(lines[1..], "\n");
      JoinLinesNoDoubleStar(lines[1..]);
      assert lines == [lines[0]] + lines[1..];
      JoinCons(lines[0], lines[1..], "\n");
      NoDoubleStarAppend(lines[0], "\n");
      NoDoubleStarAppend(lines[0] + "\n", rest);
    }
  }

  /** The lines of the cleaned text: the cleaned lines of the text once
      every "**" is gone. */
  function CleanedLines(text: String): (r: seq<String>)
    ensures |r| == |Split(RemoveDoubleStar(text), "\n")| == |Split(text, "\n")|
    ensures forall i :: 0 <= i < |r| ==> r[i] == CleanLine(Split(RemoveDoubleStar(text), "\n")[i])
    ensures forall i :: 0 <= i < |r| ==> '\n' !in r[i] && NoDoubleStar(r[i])
  {
    var bare := RemoveDoubleStar(text);
    var lines := Split(bare, "\n");
    SplitCharCount(bare, '\n');
    SplitCharCount(text, '\n');
    SplitPiecesLackSeparator(bare, "\n");
    forall i | 0 <= i < |lines| ensures '\n' !in lines[i] && NoDoubleStar(lines[i]) {
      assert lines[i] in lines;
      ContainsChar(lines[i], '\n');
      LineOfBare(bare, lines[i]);
    }
    CleanLines(lines)
  }

  /** A line of text without "**" has no "**". */
  lemma LineOfBare(bare: String, line: String)
    requires NoDoubleStar(bare) && line in Split(bare, "\n")
    ensures NoDoubleStar(line)
  {
    SplitPieceInside(bare, "\n", line);
    var a := Find(bare, line).value;
    NoDoubleStarSlice(bare, a, a + |line|);
  }

  /** Every piece of a split occurs in the split string. */
  lemma SplitPieceInside(s: String, sep: String, p: String)
    requires |sep| > 0 && p in Split(s, sep)
    ensures Contains(s, p)
  {
    JoinContains(Split(s, sep), sep, p);
    JoinSplit(s, sep);
  }

  /** The cleanup of a generated study summary. */
  function Clean(text: String): (r: String)
    ensures !Contains(r, "**")
  {
    var lines := CleanedLines(text);
    JoinLinesNoDoubleStar(lines);
    NoDoubleStarIff(Join(lines, "\n"));
    Join(lines, "\n")
  }

  /** The cleaned text splits into exactly the cleaned lines: as many as
      the text had, each stripped and none starting with "* ". */
  lemma CleanLinesOf(text: String)
    ensures Split(Clean(text), "\n") == CleanedLines(text)
    ensures |Split(Clean(text), "\n")| == |Split(text, "\n")|
    ensures forall line :: line in Split(Clean(text), "\n") ==> IsStripped(line) && !StartsWith(line, "* ")
  {
    var lines := CleanedLines(text);
    SplitJoinChar(lines, '\n');
  }

  /** Cleaning twice is cleaning once. */
  lemma CleanIdempotent(text: String)
    ensures Clean(Clean(text)) == Clean(text)
  {
    var once := Clean(text);
    var lines := CleanedLines(text);
    NoDoubleStarIff(once);
    RemoveDoubleStarKeeps(once);
    CleanLinesOf(text);
    assert Split(RemoveDoubleStar(once), "\n") == lines;
    forall i | 0 <= i < |lines| ensures CleanLine(lines[i]) == lines[i] {
      var bare := RemoveDoubleStar(text);
      assert lines[i] == CleanLine(Split(bare, "\n")[i]);
      CleanLineIdempotent(Split(bare, "\n")[i]);
    }
    assert CleanedLines(once) == lines;
  }

  /** Text that is already clean is left as it is: no "**", and every line
      stripped and not starting with "* ". */
  lemma CleanFixpoint(text: String)
    requires !Contains(text, "**")
    requires forall line :: line in Split(text, "\n") ==> IsStripped(line) && !StartsWith(line, "* ")
    ensures Clean(text) == text
  {
    NoDoubleStarIff(text);
    RemoveDoubleStarKeeps(text);
    var lines := Split(text, "\n");
    forall i | 0 <= i < |lines| ensures CleanLine(lines[i]) == lines[i] {
      assert lines[i] in lines;
      StripStripped(lines[i]);
    }
    assert CleanedLines(text) == lines;
    JoinSplit(text, "\n");
  }
}

=== FILE: digest.dfy ===
/**
 The study summary of the fallback generator: an overview quoting the
 first paragraph, and a "Key Points" section built from the first
 sentences of up to three following long paragraphs.
*/
module Digest {
  import opened Wrappers
  import opened Text

  /** The first piece of `s.split(sep)` is a prefix of `s`. */
  lemma SplitFirstPrefix(s: String, sep: String)
    requires |sep| > 0
    ensures Split(s, sep)[0] <= s
  {
  }

  /** `s.strip()` occurs in `s`. */
  lemma ContainsStripped(s: String)
    ensures Contains(s, Strip(s))
  {
    ContainsTrimmed(s, Strip(s), StripOffset(s));
  }

  /** A string contains what sits at one of its offsets. */
  lemma ContainsTrimmed(s: String, r: String, a: int)
    requires TrimmedAt(s, r, a)
    ensures Contains(s, r)
  {
    ContainsOwnSlice(s, a, a + |r|);
  }

  /** The key point paragraph `para` contributes, if any: its first
      sentence, stripped, when the paragraph is longer than 100 characters
      and that sentence longer than 20. */
  function KeyPoint(para: String): (r: Option<String>)
    ensures r.Some? ==> |para| > 100 && |r.value| > 20 && IsStripped(r.value) && '.' !in r.value
    ensures r.Some? ==> Contains(para, r.value)
  {
    if |para| <= 100 then None
    else
      var piece := Split(para, ".")[0];
      var first := Strip(piece);
      FirstSentenceInParagraph(para);
      if |first| > 20 then Some(first) else None
  }

  /** A paragraph contributes a key point exactly when it is longer than
      100 characters and its first sentence, stripped, longer than 20; the
      key point is the stripped text before the first '.', or the whole
      paragraph stripped when it has none. */
  lemma KeyPointIff(para: String)
    ensures KeyPoint(para).Some? <==> |para| > 100 && |Strip(Split(para, ".")[0])| > 20
    ensures KeyPoint(para).Some? ==> KeyPoint(para).value == Strip(Split(para, ".")[0])
    ensures KeyPoint(para).Some? && Find(para, ".").None? ==> KeyPoint(para).value == Strip(para)
    ensures KeyPoint(para).Some? && Find(para, ".").Some? ==>
      KeyPoint(para).value == Strip(para[..Find(para, ".").value])
  {
    if Find(para, ".").Some? {
      SplitAt(para, ".", Find(para, ".").value);
    }
  }

  /** The first sentence of a paragraph holds no '.' and occurs in it. */
  lemma FirstSentenceInParagraph(para: String)
    ensures '.' !in Strip(Split(para, ".")[0])
    ensures Contains(para, Strip(Split(para, ".")[0]))
  {
    var pieces := Split(para, ".");
    var piece := pieces[0];
    SplitPiecesLackSeparator(para, ".");
    assert piece in pieces;
    ContainsChar(piece, '.');
    StripKeepsOut(piece, '.');
    SplitFirstPrefix(para, ".");
    ContainsStripped(piece);
    assert para[..|piece|] == piece;
    ContainsSlice(para, Strip(piece), 0, |piece|);
  }

  /** The key points of `paras`, in order. */
  function KeyPoints(paras: seq<String>): (r: seq<String>)
    ensures |r| <= |paras|
    ensures forall kp :: kp in r ==> |kp| > 20 && IsStripped(kp) && '.' !in kp
  {
    if |paras| == 0 then []
    else
      var rest := KeyPoints(paras[1..]);
      match KeyPoint(paras[0])
      case Some(kp) => [kp] + rest
      case None => rest
  }

  /** Paragraph `j` of `paras` contributes the key point `kp`. */
  predicate Contributes(paras: seq<String>, j: int, kp: String) {
    0 <= j < |paras| && KeyPoint(paras[j]) == Some(kp)
  }

  /** A string is a key point of `paras` exactly when one of the
      paragraphs contributes it. */
  lemma {:induction false} KeyPointsMembers(paras: seq<String>, kp: String)
    ensures kp in KeyPoints(paras) <==> exists j :: Contributes(paras, j, kp)
    decreases |paras|
  {
    if |paras| > 0 {
      var tail := paras[1..];
      KeyPointsMembers(tail, kp);
      assert kp in KeyPoints(paras) <==> Contributes(paras, 0, kp) || kp in KeyPoints(tail);
      forall j | Contributes(tail, j, kp) ensures Contributes(paras, j + 1, kp) {
        assert tail[j] == paras[j + 1];
      }
      forall j | Contributes(paras, j, kp) && j > 0 ensures Contributes(tail, j - 1, kp) {
        assert tail[j - 1] == paras[j];
      }
    }
  }

  /** The key points of two runs of paragraphs are those of the first run
      followed by those of the second: paragraph order is kept. */
  lemma {:induction false} KeyPointsAppend(a: seq<String>, b: seq<String>)
    ensures KeyPoints(a + b) == KeyPoints(a) + KeyPoints(b)
    decreases |a|
  {
    if |a| == 0 {
      assert a + b == b;
    } else {
      assert (a + b)[0] == a[0];
      assert (a + b)[1..] == a[1..] + b;
      KeyPointsAppend(a[1..], b);
    }
  }

  /** A single paragraph gives its key point, if it has one. */
  lemma KeyPointsOne(para: String)
    ensures KeyPoints([para]) == if KeyPoint(para).Some? then [KeyPoint(para).value] else []
  {
    assert [para][1..] == [];
  }

  /** `f"**Overview**: {paras[0][:400]}..."`. */
  function Overview(para: String): (r: String)
    ensures |r| <= 417
    ensures Contains(r, Take(para, 400))
  {
    ContainsMiddle("**Overview**: ", Take(para, 400), "...");
    "**Overview**: " + Take(para, 400) + "..."
  }

  /** The key points drawn from `paras[1:4]`, at most three. */
  function SummaryKeyPoints(paras: seq<String>): (r: seq<String>)
    ensures |r| <= 3
  {
    if |paras| > 1 then Take(KeyPoints(Take(paras[1..], 3)), 3) else []
  }

  /** `summary_parts`: the overview when there is a paragraph, followed by
      the key-points section when there are key points. */
  function SummaryParts(paras: seq<String>): (r: seq<String>)
    ensures |r| <= 2
    ensures |r| == 0 <==> |paras| == 0
    ensures |r| > 0 ==> r[0] == Overview(paras[0])
    ensures |r| == 2 <==> |SummaryKeyPoints(paras)| > 0
    ensures |r| == 2 ==> forall kp :: kp in SummaryKeyPoints(paras) ==> Contains(r[1], kp)
  {
    if |paras| == 0 then []
    else
      var kps := SummaryKeyPoints(paras);
      forall kp | kp in kps ensures Contains("**Key Points**: " + Join(kps, " | "), kp) {
        SectionContains(kps, kp);
      }
      if |kps| > 0 then [Overview(paras[0]), "**Key Points**: " + Join(kps, " | ")]
      else [Overview(paras[0])]
  }

  /** The key-points section quotes every key point. */
  lemma SectionContains(kps: seq<String>, kp: String)
    requires kp in kps
    ensures Contains("**Key Points**: " + Join(kps, " | "), kp)
  {
    var body := Join(kps, " | ");
    var s := "**Key Points**: " + body;
    JoinContains(kps, " | ", kp);
    assert s[|s| - |body|..|s|] == body;
    ContainsSlice(s, kp, |s| - |body|, |s|);
  }

  /** The fallback `study_summary`. */
  function StudySummary(title: String, paras: seq<String>): String
  {
    var parts := SummaryParts(paras);
    if |parts| > 0 then Join(parts, "\n\n")
    else "This article provides comprehensive information about " + title + "."
  }

  /** The fallback `summary`. */
  function Summary(title: String, paras: seq<String>): String
  {
    var parts := SummaryParts(paras);
    if |parts| > 0 then parts[0] else "Information about " + title
  }

  /** With a paragraph, the summary is the overview and opens the study
      summary. */
  lemma SummaryOpensStudySummary(title: String, paras: seq<String>)
    requires |paras| > 0
    ensures Summary(title, paras) == Overview(paras[0])
    ensures Summary(title, paras) <= StudySummary(title, paras)
  {
    var parts := SummaryParts(paras);
    if |parts| == 2 {
      JoinPairPrefix(parts, "\n\n");
    }
  }

  /** The first of two joined pieces opens the joined string. */
  lemma JoinPairPrefix(parts: seq<String>, sep: String)
    requires |parts| == 2
    ensures parts[0] <= Join(parts, sep)
  {
    assert parts == [parts[0]] + parts[1..];
    JoinCons(parts[0], parts[1..], sep);
  }

  /** Without a paragraph, the summary and the study summary are the fixed
      phrases naming the title. */
  lemma NoParagraphSummaries(title: String)
    ensures Summary(title, []) == "Information about " + title
    ensures StudySummary(title, []) == "This article provides comprehensive information about " + title + "."
    ensures Contains(Summary(title, []), title)
    ensures Contains(StudySummary(title, []), title)
  {
    assert SummaryParts([]) == [];
    ContainsEnd("Information about ", title);
    ContainsMiddle("This article provides comprehensive information about ", title, ".");
  }

  /** With a paragraph, the summary is the labelled overview of its first
      400 characters, and the study summary is that overview, followed,
      when there are key points, by a blank line and the labelled key
      points separated by " | ". */
  lemma SummaryTexts(title: String, paras: seq<String>)
    requires |paras| > 0
    ensures var overview := "**Overview**: " + Take(paras[0], 400) + "...";
      var kps := SummaryKeyPoints(paras);
      && Summary(title, paras) == overview
      && (|kps| == 0 ==> StudySummary(title, paras) == overview)
      && (|kps| > 0 ==> StudySummary(title, paras) == overview + "\n\n" + "**Key Points**: " + Join(kps, " | "))
  {
    var kps := SummaryKeyPoints(paras);
    var overview := Overview(paras[0]);
    var section := "**Key Points**: " + Join(kps, " | ");
    SummaryPartsShape(paras);
    if |kps| > 0 {
      JoinPair(overview, section, "\n\n");
    }
  }

  /** The parts spelled out. */
  lemma SummaryPartsShape(paras: seq<String>)
    requires |paras| > 0
    ensures var kps := SummaryKeyPoints(paras);
      SummaryParts(paras) == if |kps| > 0 then [Overview(paras[0]), "**Key Points**: " + Join(kps, " | ")] else [Overview(paras[0])]
  {
  }

  /** The key points are those of the second to fourth paragraphs; the
      source's further cut to three never removes one. */
  lemma SummaryKeyPointsWindow(paras: seq<String>)
    ensures |paras| <= 1 ==> SummaryKeyPoints(paras) == []
    ensures |paras| > 1 ==> SummaryKeyPoints(paras) == KeyPoints(paras[1..if |paras| < 4 then |paras| else 4])
  {
    if |paras| > 1 {
      var m := if |paras| < 4 then |paras| else 4;
      var window := Take(paras[1..], 3);
      TakeTail(paras, 3);
      assert window == paras[1..m];
      TakeAll(KeyPoints(window), 3);
    }
  }

  /** The key-point window `paras[1:4]`. */
  lemma WindowAt(paras: seq<String>, j: int)
    requires 1 <= j < |paras| && j < 4
    ensures Take(paras[1..], 3)[j - 1] == paras[j]
  {
  }

  /** The study summary has a key-points section exactly when one of the
      second to fourth paragraphs contributes a key point. */
  lemma KeyPointsSection(paras: seq<String>)
    ensures |SummaryParts(paras)| == 2 <==>
      exists j :: 1 <= j < |paras| && j < 4 && KeyPoint(paras[j]).Some?
  {
    if |paras| > 1 {
      var window := Take(paras[1..], 3);
      var kps := KeyPoints(window);
      assert SummaryKeyPoints(paras) == kps;
      if exists j :: 1 <= j < |paras| && j < 4 && KeyPoint(paras[j]).Some? {
        var j :| 1 <= j < |paras| && j < 4 && KeyPoint(paras[j]).Some?;
        WindowAt(paras, j);
        assert Contributes(window, j - 1, KeyPoint(paras[j]).value);
        KeyPointsMembers(window, KeyPoint(paras[j]).value);
      }
      if |kps| > 0 {
        KeyPointsMembers(window, kps[0]);
        var j :| Contributes(window, j, kps[0]);
        WindowAt(paras, j + 1);
      }
    }
  }
}

=== FILE: generator.dfy ===
/**
 Quiz generation: the deterministic fallback generator, the language-model
 path with its fallback policy, the study-summary generation, and the
 schema backfill of the entry point the API calls.

 The language model is a parameter: a service that is either configured
 or not, whose calls return `None` where they raise.
*/
module Generator {
  import opened Wrappers
  import opened Text
  import opened Json
  import opened Segmenter
  import opened KeyTerms
  import opened Questions
  import opened Digest
  import opened QuizJson
  import opened Cleanup

  /** The fallback generator: paragraphs, sentences and key terms of the
      article text, the summaries, and `count` questions. */
  function FallbackGenerate(title: String, text: String, count: nat): (z: Quiz)
    ensures z.title == title
    ensures |z.questions| == count
    ensures forall k :: 0 <= k < count ==> WellFormed(z.questions[k])
  {
    var paras := Paragraphs(text);
    var sentences := Sentences(text);
    var keyTerms := Extract(sentences, title);
    Quiz(title, Summary(title, paras), StudySummary(title, paras),
         FallbackQuestions(title, sentences, keyTerms, count))
  }

  /** Without sentences, for instance for an empty article, the fallback
      still yields its full question count, every question a templated one. */
  lemma NoSentenceQuestions(title: String, text: String, count: nat)
    requires Sentences(text) == []
    ensures var z := FallbackGenerate(title, text, count);
      && |z.questions| == count
      && forall k :: 0 <= k < count ==> z.questions[k].question == FromTemplate(k % |Templates|, title)
  {
  }

  /** The language model as the backend sees it: whether a key is
      configured, the quiz call `(title, text, count)` and the
      study-summary call `title`; `None` where a call raises. */
  datatype Services = Services(
    hasKey: bool,
    quizModel: (String, String, nat) -> Option<Json>,
    summaryModel: String -> Option<String>)

  /** The language model sees at most the first 1500 characters of the text. */
  function ModelText(text: String): (r: String)
    ensures |r| <= 1500 && r <= text
  {
    Take(text, 1500)
  }

  /** `generate_quiz_with_llm`: the model's answer when there is a key and
      the call succeeds, unvalidated; the fallback quiz otherwise. */
  function GenerateWithLlm(svc: Services, title: String, text: String, count: nat): Json
  {
    if !svc.hasKey then QuizJsonOf(FallbackGenerate(title, text, count))
    else match svc.quizModel(title, ModelText(text), count)
      case None => QuizJsonOf(FallbackGenerate(title, text, count))
      case Some(v) => v
  }

  /** The generated quiz is the fallback quiz exactly on the fallback path;
      there it decodes to `count` well-formed questions. A successful model
      answer is passed on as it is, whatever its shape. */
  lemma LlmOutcome(svc: Services, title: String, text: String, count: nat)
    ensures var fallback := !svc.hasKey || svc.quizModel(title, ModelText(text), count).None?;
      var v := GenerateWithLlm(svc, title, text, count);
      && (fallback ==> QuizOf(v) == Some(FallbackGenerate(title, text, count)))
      && (fallback ==> |QuizOf(v).value.questions| == count)
      && (!fallback ==> Some(v) == svc.quizModel(title, ModelText(text), count))
  {
    QuizRoundTrip(FallbackGenerate(title, text, count));
  }

  /** The opening of the study summary used without a key. */
  const StudyMaterialHead: String := "**" + "Study Material**: This article provides comprehensive information about "

  /** The study summary used without a key. */
  function NoKeyStudySummary(title: String): (r: String)
    ensures Contains(r, title)
  {
    ContainsMiddle(StudyMaterialHead, title, ".");
    StudyMaterialHead + title + "."
  }

  /** `_generate_study_summary_with_ai`: the fixed text without a key,
      otherwise the cleaned model text; `None` when the call raises, which
      the caller does not catch. */
  function StudySummaryWithAi(svc: Services, title: String): (r: Option<String>)
    ensures r.None? <==> svc.hasKey && svc.summaryModel(title).None?
    ensures svc.hasKey && r.Some? ==> !Contains(r.value, "**") && r.value == Clean(svc.summaryModel(title).value)
  {
    if !svc.hasKey then Some(NoKeyStudySummary(title))
    else match svc.summaryModel(title)
      case None => None
      case Some(t) => Some(Clean(t))
  }

  /** The fixed text used without a key still carries the "**" markers the
      cleanup removes from model text. */
  lemma NoKeySummaryKeepsMarkers(title: String)
    ensures Contains(NoKeyStudySummary(title), "**")
  {
    var r := NoKeyStudySummary(title);
    var head := StudyMaterialHead;
    assert head[0..2] == "**";
    assert r[0..2] == head[0..2];
    assert OccursAt(r, "**", 0);
    ContainsIff(r, "**");
  }

  /** `(text.split("\n\n")[0][:400]) if text else ""`. */
  function BackfillSummary(text: String): (r: String)
    ensures |r| <= 400 && r <= text
    ensures !Contains(r, "\n\n")
  {
    var piece := Split(text, "\n\n")[0];
    Digest.SplitFirstPrefix(text, "\n\n");
    SplitPiecesLackSeparator(text, "\n\n");
    assert piece in Split(text, "\n\n");
    var r := if |text| > 0 then Take(piece, 400) else "";
    SliceKeepsLack(piece, "\n\n", 0, r);
    r
  }

  /** The backfilled summary is the first 400 characters of the text up to
      its first blank line, or of the whole text when it has none. */
  lemma BackfillSummaryFirstBlock(text: String)
    ensures Find(text, "\n\n").None? ==> BackfillSummary(text) == Take(text, 400)
    ensures Find(text, "\n\n").Some? ==> BackfillSummary(text) == Take(text[..Find(text, "\n\n").value], 400)
  {
    if Find(text, "\n\n").Some? {
      SplitAt(text, "\n\n", Find(text, "\n\n").value);
    }
  }

  /** The keys the backfill guarantees. */
  const SchemaKeys: set<String> := {"title", "summary", "study_summary", "questions"}

  /** The schema backfill of `generate_quiz` on a dict returned by the
      generator. */
  function Backfill(f: map<String, Json>, title: String, text: String, study: String): (r: map<String, Json>)
    ensures r.Keys == f.Keys + SchemaKeys
  {
    var f1 := if "title" in f then f else f["title" := JStr(title)];
    var f2 := if "summary" in f1 then f1 else f1["summary" := JStr(BackfillSummary(text))];
    var f3 := f2["study_summary" := JStr(study)];
    if "questions" !in f3 || !f3["questions"].JArr? then f3["questions" := JArr([])] else f3
  }

  /** The backfill sets `title` and `summary` only where they are missing,
      always replaces `study_summary`, replaces a missing or non-list
      `questions` by an empty list, and leaves every other key alone. */
  lemma BackfillFields(f: map<String, Json>, title: String, text: String, study: String)
    ensures var r := Backfill(f, title, text, study);
      && r["title"] == Get(f, "title", JStr(title))
      && r["summary"] == Get(f, "summary", JStr(BackfillSummary(text)))
      && r["study_summary"] == JStr(study)
      && r["questions"] == (if "questions" in f && f["questions"].JArr? then f["questions"] else JArr([]))
      && forall k :: k in f && k !in SchemaKeys ==> r[k] == f[k]
  {
  }

  /** The count of questions requested from the generator. */
  function QuestionCount(extraQuestions: bool): nat {
    if extraQuestions then 15 else 10
  }

  /** `generate_quiz`: 15 questions are requested when `extraQuestions`,
      10 otherwise; a generated value that is not a dict makes the
      backfill raise, and so does a failing study-summary call. */
  function GenerateQuiz(svc: Services, title: String, text: String, extraQuestions: bool): (r: Option<Json>)
    ensures r.Some? ==> r.value.JObj? && SchemaKeys <= r.value.fields.Keys
  {
    var quiz := GenerateWithLlm(svc, title, text, QuestionCount(extraQuestions));
    if !quiz.JObj? then None
    else match StudySummaryWithAi(svc, title)
      case None => None
      case Some(study) => Some(JObj(Backfill(quiz.fields, title, text, study)))
  }

  /** On a dict that already has the schema keys, with a list of questions,
      the backfill only replaces the study summary. */
  lemma BackfillComplete(f: map<String, Json>, title: String, text: String, study: String)
    requires SchemaKeys <= f.Keys && f["questions"].JArr?
    ensures Backfill(f, title, text, study) == f["study_summary" := JStr(study)]
  {
  }

  /** Replacing the study summary of an encoded quiz encodes the quiz with
      that study summary. */
  lemma ReplaceStudySummary(z: Quiz, study: String)
    ensures QuizJsonOf(z).fields["study_summary" := JStr(study)] == QuizJsonOf(z.(studySummary := study)).fields
  {
  }

  /** Without a key, the entry point backfills the encoded fallback quiz
      with the fixed study summary. */
  lemma NoKeyBackfill(svc: Services, title: String, text: String, extraQuestions: bool)
    requires !svc.hasKey
    ensures var z := FallbackGenerate(title, text, QuestionCount(extraQuestions));
      GenerateQuiz(svc, title, text, extraQuestions) == Some(JObj(Backfill(QuizJsonOf(z).fields, title, text, NoKeyStudySummary(title))))
  {
    assert GenerateWithLlm(svc, title, text, QuestionCount(extraQuestions))
      == QuizJsonOf(FallbackGenerate(title, text, QuestionCount(extraQuestions)));
    assert StudySummaryWithAi(svc, title) == Some(NoKeyStudySummary(title));
  }

  /** Without a key, the entry point returns the fallback quiz with the
      fixed study summary, holding 15 questions when `extraQuestions` and
      10 otherwise. */
  lemma NoKeyQuiz(svc: Services, title: String, text: String, extraQuestions: bool)
    requires !svc.hasKey
    ensures var r := GenerateQuiz(svc, title, text, extraQuestions);
      var z := FallbackGenerate(title, text, QuestionCount(extraQuestions));
      && r.Some?
      && QuizOf(r.value) == Some(z.(studySummary := NoKeyStudySummary(title)))
      && |z.questions| == QuestionCount(extraQuestions)
  {
    var z := FallbackGenerate(title, text, QuestionCount(extraQuestions));
    NoKeyBackfill(svc, title, text, extraQuestions);
    BackfilledQuiz(z, title, text, NoKeyStudySummary(title));
  }

  /** Backfilling an encoded quiz keeps its questions. */
  lemma BackfilledQuestions(z: Quiz, title: String, text: String, study: String)
    ensures Backfill(QuizJsonOf(z).fields, title, text, study)["questions"] == QuestionsJson(z.questions)
  {
    BackfillComplete(QuizJsonOf(z).fields, title, text, study);
  }

  /** Backfilling an encoded quiz yields that quiz with the new study summary. */
  lemma BackfilledQuiz(z: Quiz, title: String, text: String, study: String)
    ensures QuizOf(JObj(Backfill(QuizJsonOf(z).fields, title, text, study))) == Some(z.(studySummary := study))
  {
    var v := QuizJsonOf(z);
    BackfillComplete(v.fields, title, text, study);
    ReplaceStudySummary(z, study);
    QuizRoundTrip(z.(studySummary := study));
  }

  /** A failing study-summary call fails the whole generation, even when
      the quiz itself came from the fallback. */
  lemma SummaryFailurePropagates(svc: Services, title: String, text: String, extraQuestions: bool)
    requires svc.hasKey && svc.summaryModel(title).None?
    ensures GenerateQuiz(svc, title, text, extraQuestions).None?
  {
  }

  /** With a key, an object answer and a successful study-summary call, the
      entry point returns the model's answer backfilled with the cleaned
      study summary. */
  lemma KeyedQuiz(svc: Services, title: String, text: String, extraQuestions: bool)
    requires svc.hasKey && svc.summaryModel(title).Some?
    requires GenerateWithLlm(svc, title, text, QuestionCount(extraQuestions)).JObj?
    ensures var quiz := GenerateWithLlm(svc, title, text, QuestionCount(extraQuestions));
      GenerateQuiz(svc, title, text, extraQuestions)
        == Some(JObj(Backfill(quiz.fields, title, text, Clean(svc.summaryModel(title).value))))
  {
  }

  /** The entry point fails exactly when the generated value is not an
      object or, with a key, the study-summary call fails. */
  lemma GenerateQuizFails(svc: Services, title: String, text: String, extraQuestions: bool)
    ensures var quiz := GenerateWithLlm(svc, title, text, QuestionCount(extraQuestions));
      var failed := GenerateQuiz(svc, title, text, extraQuestions).None?;
      failed <==> !quiz.JObj? || (svc.hasKey && svc.summaryModel(title).None?)
  {
  }

  /** A model answer that is not a JSON object fails the generation. */
  lemma NonObjectFails(svc: Services, title: String, text: String, extraQuestions: bool)
    requires svc.hasKey
    requires var v := svc.quizModel(title, ModelText(text), QuestionCount(extraQuestions)); v.Some? && !v.value.JObj?
    ensures GenerateQuiz(svc, title, text, extraQuestions).None?
  {
  }
}

=== FILE: json.dfy ===
/**
 JSON values as the backend handles them: Python dicts, lists, strings,
 numbers, booleans and None, and the serialisation used to store quizzes.
*/
module Json {
  import opened Wrappers
  import opened Text

  /** A JSON value. Objects are maps: the order of their keys is not modelled. */
  datatype Json =
    | JNull
    | JBool(b: bool)
    | JNum(n: int)
    | JStr(s: String)
    | JArr(items: seq<Json>)
    | JObj(fields: map<String, Json>)

  /** Python's `len(v)`: defined for strings, lists and dicts; `None` stands
      for the `TypeError` any other value raises. */
  function PyLen(v: Json): (r: Option<nat>)
    ensures r.Some? <==> v.JStr? || v.JArr? || v.JObj?
    ensures v.JArr? ==> r == Some(|v.items|)
  {
    match v
    case JStr(s) => Some(|s|)
    case JArr(items) => Some(|items|)
    case JObj(fields) => Some(|fields.Keys|)
    case _ => None
  }

  /** `d.get(key, default)`. */
  function Get(fields: map<String, Json>, key: String, default: Json): (r: Json)
    ensures key in fields ==> r == fields[key]
    ensures key !in fields ==> r == default
  {
    if key in fields then fields[key] else default
  }

  /** `json.dumps` and `json.loads`; `loads` yields `None` where it raises. */
  datatype Codec = Codec(dumps: Json -> String, loads: String -> Option<Json>)

  /** Loading what was dumped gives the value back. */
  ghost predicate RoundTrips(codec: Codec) {
    forall v :: codec.loads(codec.dumps(v)) == Some(v)
  }

  /** A list of strings as a JSON array. */
  function Strings(xs: seq<String>): (r: Json)
    ensures r.JArr? && |r.items| == |xs|
    ensures forall i :: 0 <= i < |xs| ==> r.items[i] == JStr(xs[i])
  {
    JArr(seq(|xs|, i requires 0 <= i < |xs| => JStr(xs[i])))
  }

  /** The strings of a JSON array, if every item is a string. */
  function StringsOf(items: seq<Json>): (r: Option<seq<String>>)
    ensures r.Some? ==> |r.value| == |items|
  {
    if |items| == 0 then Some([])
    else if !items[0].JStr? then None
    else match StringsOf(items[1..])
      case None => None
      case Some(rest) => Some([items[0].s] + rest)
  }

  /** Decoding an encoded list of strings gives the list back. */
  lemma {:induction false} StringsRoundTrip(xs: seq<String>)
    ensures StringsOf(Strings(xs).items) == Some(xs)
    decreases |xs|
  {
    if |xs| > 0 {
      var items := Strings(xs).items;
      assert items[1..] == Strings(xs[1..]).items;
      StringsRoundTrip(xs[1..]);
      assert xs == [xs[0]] + xs[1..];
    }
  }

  /** A non-string item makes the decoding fail. */
  lemma {:induction false} StringsOfRejects(items: seq<Json>, k: nat)
    requires k < |items| && !items[k].JStr?
    ensures StringsOf(items).None?
    decreases |items|
  {
    if k > 0 {
      assert items[1..][k - 1] == items[k];
      StringsOfRejects(items[1..], k - 1);
    }
  }
}

=== FILE: key_terms.dfy ===
/**
 Key-term extraction of the fallback generator: every match of the pattern
 `\b[A-Z][a-z]+(?:\s+[A-Z][a-z]+)*\b` in the first eight sentences, keeping
 terms longer than three characters that differ from the title ignoring
 case, de-duplicated in first-seen order and capped at fifteen.
 */
module KeyTerms {
  import opened Wrappers
  import opened Text

  predicate IsLetter(c: char) { IsUpper(c) || IsLower(c) }

  /** The end of the run of lower-case letters that starts at `q`. */
  function LowerRunEnd(s: String, q: nat): (e: nat)
    requires q <= |s|
    ensures q <= e <= |s|
    ensures forall j :: q <= j < e ==> IsLower(s[j])
    ensures e == |s| || !IsLower(s[e])
    decreases |s| - q
  {
    if q < |s| && IsLower(s[q]) then LowerRunEnd(s, q + 1) else q
  }

  /** The end of the run of whitespace that starts at `q`. */
  function SpaceRunEnd(s: String, q: nat): (e: nat)
    requires q <= |s|
    ensures q <= e <= |s|
    ensures forall j :: q <= j < e ==> IsSpace(s[j])
    ensures e == |s| || !IsSpace(s[e])
    decreases |s| - q
  {
    if q < |s| && IsSpace(s[q]) then SpaceRunEnd(s, q + 1) else q
  }

  /** `s[p..e]` is a capitalised word `[A-Z][a-z]+` whose lower-case run
      cannot be extended. */
  predicate CapWord(s: String, p: int, e: int) {
    && 0 <= p && p + 2 <= e <= |s|
    && IsUpper(s[p])
    && (forall j :: p < j < e ==> IsLower(s[j]))
    && (e == |s| || !IsLower(s[e]))
  }

  /** One character may follow another inside a match of
      `[A-Z][a-z]+(?:\s+[A-Z][a-z]+)*`: an upper-case letter is followed by a
      lower-case one, a lower-case letter by a lower-case letter or
      whitespace, and whitespace by whitespace or an upper-case letter. */
  predicate Step(a: char, b: char) {
    || (IsUpper(a) && IsLower(b))
    || (IsLower(a) && (IsLower(b) || IsSpace(b)))
    || (IsSpace(a) && (IsSpace(b) || IsUpper(b)))
  }

  /** Every two adjacent characters of `s[p..e]` are a `Step`. Starting with
      an upper-case letter and ending with a lower-case one, such a slice is
      one or more capitalised words `[A-Z][a-z]+` separated by runs of
      whitespace. */
  predicate PhraseShape(s: String, p: int, e: int)
    requires 0 <= p <= e <= |s|
  {
    forall j {:trigger Step(s[j], s[j + 1])} :: p <= j < e - 1 ==> Step(s[j], s[j + 1])
  }

  /** Two shapes that share the character at `b - 1` make one shape. */
  lemma ShapeJoin(s: String, a: int, b: int, c: int)
    requires 0 <= a < b <= c <= |s|
    requires PhraseShape(s, a, b) && PhraseShape(s, b - 1, c)
    ensures PhraseShape(s, a, c)
  {
    forall j | a <= j < c - 1 ensures Step(s[j], s[j + 1]) {
      if j < b - 1 {
        assert a <= j < b - 1;
      } else {
        assert b - 1 <= j < c - 1;
      }
    }
  }

  /** `ShapeJoin` for an optional end. */
  lemma ShapeJoinSome(s: String, a: int, b: int, c: Option<nat>)
    requires 0 <= a < b <= |s| && PhraseShape(s, a, b)
    requires c.Some? ==> b <= c.value <= |s| && PhraseShape(s, b - 1, c.value)
    ensures c.Some? ==> PhraseShape(s, a, c.value)
  {
    if c.Some? {
      ShapeJoin(s, a, b, c.value);
    }
  }

  /** A capitalised word has the shape of a phrase. */
  lemma CapWordShape(s: String, p: int, e: int)
    requires CapWord(s, p, e)
    ensures PhraseShape(s, p, e)
  {
    forall j | p <= j < e - 1 ensures Step(s[j], s[j + 1]) {
      assert IsLower(s[j + 1]);
      if j > p {
        assert IsLower(s[j]);
      }
    }
  }

  /** `[A-Z][a-z]+` at `p`: the end of the word, if one starts there. Once
      `[a-z]+` has taken its whole run, backtracking into it never helps,
      because what follows a shorter run is a lower-case letter. */
  function WordAt(s: String, p: nat): (r: Option<nat>)
    requires p <= |s|
    ensures r.Some? <==> (p + 1 < |s| && IsUpper(s[p]) && IsLower(s[p + 1]))
    ensures r.Some? ==> CapWord(s, p, r.value)
  {
    if p + 1 < |s| && IsUpper(s[p]) && IsLower(s[p + 1]) then Some(LowerRunEnd(s, p + 1)) else None
  }

  /** The greedy repetition `(?:\s+[A-Z][a-z]+)*` after a word ending at `e`:
      the end of the last repetition taken, and the end of the one before it
      (`None` when no repetition was taken). */
  function Chain(s: String, e: nat): (r: (nat, Option<nat>))
    requires 2 <= e <= |s| && IsLower(s[e - 1])
    ensures e <= r.0 <= |s| && IsLower(s[r.0 - 1]) && PhraseShape(s, e - 1, r.0)
    ensures r.1.None? <==> r.0 == e
    ensures r.1.Some? ==> e <= r.1.value < r.0 && IsLower(s[r.1.value - 1]) && IsSpace(s[r.1.value])
    ensures r.1.Some? ==> PhraseShape(s, e - 1, r.1.value)
    decreases |s| - e
  {
    var w := SpaceRunEnd(s, e);
    if w == e then (e, None)
    else
      match WordAt(s, w)
      case None => (e, None)
      case Some(e2) =>
        var c := Chain(s, e2);
        GapShape(s, e, w, e2);
        ShapeJoin(s, e - 1, e2, c.0);
        ShapeJoinSome(s, e - 1, e2, c.1);
        (c.0, if c.1.Some? then c.1 else Some(e))
  }

  /** A lower-case letter, a run of whitespace and a capitalised word make
      the shape of a phrase. */
  lemma GapShape(s: String, e: int, w: int, e2: int)
    requires CapWord(s, w, e2)
    requires 1 <= e < w && IsLower(s[e - 1])
    requires forall j :: e <= j < w ==> IsSpace(s[j])
    ensures PhraseShape(s, e - 1, e2)
  {
    CapWordShape(s, w, e2);
    forall j | e - 1 <= j < w ensures Step(s[j], s[j + 1]) {
      assert IsSpace(s[j + 1]) || (j + 1 == w && IsUpper(s[j + 1]));
    }
    ShapeJoin(s, e - 1, w + 1, e2);
  }

  /** `\b` just after a lower-case letter at `e - 1`. */
  predicate AtBoundary(s: String, e: int)
    requires 0 <= e <= |s|
  {
    e == |s| || !IsWordChar(s[e])
  }

  /** `s[p..e]` is a match of the key-term pattern: a word boundary, one or
      more capitalised words separated by whitespace, and a word boundary. */
  predicate IsMatch(s: String, p: int, e: int) {
    && 0 <= p && p + 2 <= e <= |s|
    && (p == 0 || !IsWordChar(s[p - 1]))
    && IsUpper(s[p]) && IsLower(s[e - 1])
    && PhraseShape(s, p, e)
    && AtBoundary(s, e)
  }

  /** The match that starts at `p`, if any: the longest chain of words whose
      end is a word boundary. The chain can only fail `\b` at its very end
      (inside it, every word is followed by whitespace), so backtracking
      drops at most the last repetition. */
  function MatchAt(s: String, p: nat): (r: Option<nat>)
    requires p < |s|
    ensures r.Some? ==> IsMatch(s, p, r.value)
  {
    if p > 0 && IsWordChar(s[p - 1]) then None
    else
      match WordAt(s, p)
      case None => None
      case Some(e0) =>
        var c := Chain(s, e0);
        CapWordShape(s, p, e0);
        ShapeJoin(s, p, e0, c.0);
        ShapeJoinSome(s, p, e0, c.1);
        if AtBoundary(s, c.0) then Some(c.0)
        else if c.1.Some? then Some(c.1.value)
        else None
  }

  /** Every span is a match starting at or after `p`; spans do not overlap. */
  predicate SpansFrom(s: String, p: int, spans: seq<(nat, nat)>) {
    && (forall k :: 0 <= k < |spans| ==> p <= spans[k].0 && IsMatch(s, spans[k].0, spans[k].1))
    && (forall k :: 0 <= k < |spans| - 1 ==> spans[k].1 <= spans[k + 1].0)
  }

  /** `re.findall` from position `p`: try a match at each position, and
      resume after the end of each match found. */
  function Scan(s: String, p: nat): (spans: seq<(nat, nat)>)
    requires p <= |s|
    ensures SpansFrom(s, p, spans)
    decreases |s| - p
  {
    if p == |s| then []
    else
      match MatchAt(s, p)
      case Some(e) =>
        var rest := Scan(s, e);
        assert SpansFrom(s, p, [(p, e)] + rest) by {
          var spans := [(p, e)] + rest;
          forall k | 0 <= k < |spans| ensures p <= spans[k].0 && IsMatch(s, spans[k].0, spans[k].1) {
            if k > 0 { assert spans[k] == rest[k - 1]; }
          }
          forall k | 0 <= k < |spans| - 1 ensures spans[k].1 <= spans[k + 1].0 {
            if k > 0 { assert spans[k] == rest[k - 1]; }
          }
        }
        [(p, e)] + rest
      case None => Scan(s, p + 1)
  }

  /** `t` is the text of a match at position `a` of `s`. */
  predicate MatchTextAt(s: String, a: int, t: String) {
    IsMatch(s, a, a + |t|) && s[a..a + |t|] == t
  }

  /** `t` is one of the texts the pattern finds in `s`. */
  ghost predicate MatchedIn(s: String, t: String) {
    exists a :: MatchTextAt(s, a, t)
  }

  lemma SpanText(s: String, a: nat, e: nat)
    requires IsMatch(s, a, e)
    ensures var t := s[a..e]; MatchedIn(s, t) && |t| >= 2 && IsUpper(t[0]) && IsLower(t[|t| - 1])
  {
    assert MatchTextAt(s, a, s[a..e]);
  }

  /** `re.findall(pattern, s)`: the matched texts, left to right. */
  function FindAll(s: String): (r: seq<String>)
    ensures forall t :: t in r ==> MatchedIn(s, t)
    ensures forall t :: t in r ==> |t| >= 2 && IsUpper(t[0]) && IsLower(t[|t| - 1])
  {
    var spans := Scan(s, 0);
    var r := seq(|spans|, k requires 0 <= k < |spans| => s[spans[k].0..spans[k].1]);
    SpanTexts(s, spans, r);
    r
  }

  /** The texts of matched spans are matched texts. */
  lemma SpanTexts(s: String, spans: seq<(nat, nat)>, r: seq<String>)
    requires |r| == |spans|
    requires forall k :: 0 <= k < |spans| ==> IsMatch(s, spans[k].0, spans[k].1) && r[k] == s[spans[k].0..spans[k].1]
    ensures forall t :: t in r ==> MatchedIn(s, t) && |t| >= 2 && IsUpper(t[0]) && IsLower(t[|t| - 1])
  {
    forall t | t in r ensures MatchedIn(s, t) && |t| >= 2 && IsUpper(t[0]) && IsLower(t[|t| - 1]) {
      var k :| 0 <= k < |r| && r[k] == t;
      SpanText(s, spans[k].0, spans[k].1);
    }
  }

  /** The filter of the fallback generator: longer than three characters and
      not the title, compared in lower case. */
  predicate Admissible(t: String, title: String) {
    |t| > 3 && Lower(t) != Lower(title)
  }

  /** `[w for w in words if len(w) > 3 and w.lower() != title.lower()]`. */
  function Admitted(words: seq<String>, title: String): (r: seq<String>)
    ensures forall t :: t in r <==> t in words && Admissible(t, title)
    decreases |words|
  {
    if |words| == 0 then []
    else
      var rest := Admitted(words[1..], title);
      assert forall t :: t in words <==> t == words[0] || t in words[1..];
      if Admissible(words[0], title) then [words[0]] + rest else rest
  }

  /** The filter keeps the input order: filtering two lists one after the
      other is filtering their concatenation. */
  lemma {:induction false} AdmittedAppend(a: seq<String>, b: seq<String>, title: String)
    ensures Admitted(a + b, title) == Admitted(a, title) + Admitted(b, title)
    decreases |a|
  {
    if |a| == 0 {
      assert a + b == b;
    } else {
      assert (a + b)[0] == a[0];
      assert (a + b)[1..] == a[1..] + b;
      AdmittedAppend(a[1..], b, title);
    }
  }

  /** A single word is kept exactly when it is admissible. */
  lemma AdmittedOne(w: String, title: String)
    ensures Admitted([w], title) == if Admissible(w, title) then [w] else []
  {
    assert [w][1..] == [];
  }

  /** `t` is matched in one of the sentences. */
  ghost predicate MatchedInSome(sentences: seq<String>, t: String) {
    exists j :: 0 <= j < |sentences| && MatchedIn(sentences[j], t)
  }

  /** The lists of `xss`, one after another. */
  function Flatten(xss: seq<seq<String>>): (r: seq<String>)
    ensures forall t :: t in r <==> exists j :: 0 <= j < |xss| && t in xss[j]
    decreases |xss|
  {
    if |xss| == 0 then []
    else
      var rest := Flatten(xss[1..]);
      assert forall j :: 1 <= j < |xss| ==> xss[1..][j - 1] == xss[j];
      xss[0] + rest
  }

  /** An admitted match is admissible and matched. */
  lemma AdmittedMatched(s: String, title: String, t: String)
    requires t in Admitted(FindAll(s), title)
    ensures Admissible(t, title) && MatchedIn(s, t)
  {
  }

  /** Flattening keeps the order of the lists. */
  lemma {:induction false} FlattenAppend(xss: seq<seq<String>>, yss: seq<seq<String>>)
    ensures Flatten(xss + yss) == Flatten(xss) + Flatten(yss)
    decreases |xss|
  {
    if |xss| == 0 {
      assert xss + yss == yss;
    } else {
      assert (xss + yss)[0] == xss[0];
      assert (xss + yss)[1..] == xss[1..] + yss;
      FlattenAppend(xss[1..], yss);
    }
  }

  /** `f` applied to every element of `xs`. */
  function Map(xs: seq<String>, f: String -> seq<String>): (r: seq<seq<String>>)
    ensures |r| == |xs|
    ensures forall j :: 0 <= j < |xs| ==> r[j] == f(xs[j])
  {
    seq(|xs|, j requires 0 <= j < |xs| => f(xs[j]))
  }

  /** Mapping keeps the order of the elements. */
  lemma MapAppend(a: seq<String>, b: seq<String>, f: String -> seq<String>)
    ensures Map(a + b, f) == Map(a, f) + Map(b, f)
  {
    var s := a + b;
    var l := Map(s, f);
    var r := Map(a, f) + Map(b, f);
    forall j | 0 <= j < |s| ensures l[j] == r[j] {
      if j < |a| {
        assert s[j] == a[j];
      } else {
        assert s[j] == b[j - |a|];
      }
    }
  }

  /** The admitted matches of one sentence. */
  function Here(title: String): String -> seq<String> {
    s => Admitted(FindAll(s), title)
  }

  /** The admitted matches of each sentence, in sentence order. */
  function Admissions(sentences: seq<String>, title: String): (r: seq<seq<String>>)
    ensures |r| == |sentences|
    ensures forall j :: 0 <= j < |sentences| ==> r[j] == Admitted(FindAll(sentences[j]), title)
  {
    seq(|sentences|, j requires 0 <= j < |sentences| => Admitted(FindAll(sentences[j]), title))
  }

  /** The admissions are the admitted matches mapped over the sentences. */
  lemma AdmissionsMap(sentences: seq<String>, title: String)
    ensures Admissions(sentences, title) == Map(sentences, Here(title))
  {
    var a := Admissions(sentences, title);
    var m := Map(sentences, Here(title));
    forall j | 0 <= j < |sentences| ensures a[j] == m[j] {
      assert m[j] == Here(title)(sentences[j]);
    }
  }

  /** The admitted matches of every sentence, sentence after sentence: a
      string is a candidate exactly when some sentence's admitted matches
      hold it. */
  function Candidates(sentences: seq<String>, title: String): (r: seq<String>)
    ensures forall t :: t in r <==> exists j :: 0 <= j < |sentences| && t in Admitted(FindAll(sentences[j]), title)
    ensures forall t :: t in r ==> Admissible(t, title) && MatchedInSome(sentences, t)
  {
    var xss := Admissions(sentences, title);
    var r := Flatten(xss);
    forall t | t in r ensures Admissible(t, title) && MatchedInSome(sentences, t) {
      var j :| 0 <= j < |sentences| && t in Admitted(FindAll(sentences[j]), title);
      AdmittedMatched(sentences[j], title, t);
    }
    r
  }

  /** The candidates of two runs of sentences are those of the first run
      followed by those of the second: sentence order is kept. */
  lemma CandidatesAppend(s1: seq<String>, s2: seq<String>, title: String)
    ensures Candidates(s1 + s2, title) == Candidates(s1, title) + Candidates(s2, title)
  {
    AdmissionsAppend(s1, s2, title);
    FlattenAppend(Admissions(s1, title), Admissions(s2, title));
  }

  /** The admissions of two runs of sentences, one after the other. */
  lemma AdmissionsAppend(s1: seq<String>, s2: seq<String>, title: String)
    ensures Admissions(s1 + s2, title) == Admissions(s1, title) + Admissions(s2, title)
  {
    AdmissionsMap(s1 + s2, title);
    AdmissionsMap(s1, title);
    AdmissionsMap(s2, title);
    MapAppend(s1, s2, Here(title));
  }

  /** The candidates of one sentence are its admitted matches, in match
      order. */
  lemma CandidatesOne(sentence: String, title: String)
    ensures Candidates([sentence], title) == Admitted(FindAll(sentence), title)
  {
    var xss := Admissions([sentence], title);
    assert xss == [Admitted(FindAll(sentence), title)];
    assert xss[1..] == [];
    assert Flatten(xss) == xss[0] + Flatten(xss[1..]);
  }

  /** The position of the first occurrence of `x` in `xs`. */
  function FirstIndex<T(==)>(xs: seq<T>, x: T): (i: nat)
    requires x in xs
    ensures i < |xs| && xs[i] == x
    ensures forall j :: 0 <= j < i ==> xs[j] != x
  {
    if xs[0] == x then 0 else 1 + FirstIndex(xs[1..], x)
  }

  lemma FirstIndexPrefix<T>(xs: seq<T>, y: T, x: T)
    requires x in xs
    ensures FirstIndex(xs + [y], x) == FirstIndex(xs, x)
  {
    var i := FirstIndex(xs, x);
    var i' := FirstIndex(xs + [y], x);
    assert (xs + [y])[i] == x;
    assert i' <= i;
    assert xs[i'] == (xs + [y])[i'];
  }

  /** `list(dict.fromkeys(xs))`: the first occurrence of every element, in
      the order of first occurrence. */
  function Dedup(xs: seq<String>): (r: seq<String>)
    ensures Distinct(r)
    ensures forall x :: x in r <==> x in xs
    ensures forall i, j :: 0 <= i < j < |r| ==> FirstIndex(xs, r[i]) < FirstIndex(xs, r[j])
    decreases |xs|
  {
    if |xs| == 0 then []
    else
      var init := xs[..|xs| - 1];
      var y := xs[|xs| - 1];
      var r := Dedup(init);
      assert xs == init + [y];
      forall x | x in r ensures FirstIndex(xs, x) == FirstIndex(init, x) {
        FirstIndexPrefix(init, y, x);
      }
      if y in r then r
      else
        assert FirstIndex(xs, y) == |xs| - 1;
        var r' := r + [y];
        assert forall i :: 0 <= i < |r| ==> r'[i] == r[i];
        assert forall i :: 0 <= i < |r| ==> FirstIndex(xs, r[i]) < |init|;
        r'
  }

  /** `key_terms` of the fallback generator, from its sentences and title. */
  function Extract(sentences: seq<String>, title: String): (r: seq<String>)
    ensures |r| <= 15
    ensures Distinct(r)
    ensures forall t :: t in r ==> Admissible(t, title) && MatchedInSome(Take(sentences, 8), t)
  {
    var cands := Candidates(Take(sentences, 8), title);
    var all := Dedup(cands);
    var r := Take(all, 15);
    forall t | t in r ensures Admissible(t, title) && MatchedInSome(Take(sentences, 8), t) {
      assert t in all;
      assert t in cands;
    }
    r
  }

  /** The key terms are the first fifteen distinct admitted candidates of
      the first eight sentences, in the order they were first found, or all
      of them when there are fewer. */
  lemma ExtractKeepsFirstSeen(sentences: seq<String>, title: String)
    ensures var cands := Candidates(Take(sentences, 8), title);
      && (|Dedup(cands)| <= 15 ==> forall t :: t in cands ==> t in Extract(sentences, title))
      && Extract(sentences, title) <= Dedup(cands)
      && |Extract(sentences, title)| == if |Dedup(cands)| < 15 then |Dedup(cands)| else 15
  {
  }
}

=== FILE: questions.dfy ===
/**
 The question loop of the fallback generator: for each slot `i` below the
 requested count, a question built from sentence `i` when there is one
 (classified question text, the sentence's opening words as the answer,
 three distractors), and otherwise a templated question whose options come
 from the first key terms or from fixed title phrases.
 */
module Questions {
  import opened Text

  /** `{"question": ..., "options": [...], "answer": ...}`. */
  datatype Question = Question(question: String, options: seq<String>, answer: String)

  /** The shape every generated question has: four options, the first of
      which is the answer. */
  predicate WellFormed(q: Question) {
    |q.options| == 4 && q.answer == q.options[0]
  }

  /** The fifteen question templates, each split at its `{title}` placeholder. */
  const Templates: seq<(String, String)> := [
    ("What is a key characteristic of ", "?"),
    ("According to the article, ", " is primarily known for what?"),
    ("Which statement best describes ", "?"),
    ("What important aspect of ", " is mentioned?"),
    ("How is ", " typically defined or characterized?"),
    ("What significant feature of ", " does the article highlight?"),
    ("Which of the following is associated with ", "?"),
    ("What notable information about ", " is provided?"),
    ("According to the content, ", " can be described as what?"),
    ("What key point about ", " is emphasized in the article?"),
    ("What fundamental principle underlies ", "?"),
    ("Which aspect makes ", " particularly important?"),
    ("How does ", " relate to its field of study?"),
    ("What distinguishes ", " from similar concepts?"),
    ("What practical application of ", " is discussed?")
  ]

  /** `templates[k].format(title=title)`. */
  function FromTemplate(k: nat, title: String): (r: String)
    requires k < |Templates|
    ensures Contains(r, title)
  {
    ContainsMiddle(Templates[k].0, title, Templates[k].1);
    Templates[k].0 + title + Templates[k].1
  }

  /** The kind of question a sentence suggests. */
  datatype Kind = Descriptive | Usage | Historical | General

  /** The keywords of each kind, tested in this order. */
  const DescriptiveWords: seq<String> := ["is", "was", "are", "were"]
  const UsageWords: seq<String> := ["used", "apply", "application"]
  const HistoricalWords: seq<String> := ["develop", "create", "invent"]

  /** Some keyword of `words` occurs in `low`. */
  predicate Mentions(low: String, words: seq<String>) {
    exists k :: 0 <= k < |words| && Contains(low, words[k])
  }

  /** The keyword test of the fallback generator: the first kind, in the
      order descriptive, usage, historical, one of whose keywords occurs in
      the lower-cased sentence. It looks for each keyword as a SUBSTRING,
      so "this" counts as containing "is". */
  function Classify(sentence: String): (r: Kind)
    ensures var low := Lower(sentence);
      && (r == Descriptive <==> Mentions(low, DescriptiveWords))
      && (r == Usage <==> !Mentions(low, DescriptiveWords) && Mentions(low, UsageWords))
      && (r == Historical <==>
            !Mentions(low, DescriptiveWords) && !Mentions(low, UsageWords) && Mentions(low, HistoricalWords))
      && (r == General <==>
            !Mentions(low, DescriptiveWords) && !Mentions(low, UsageWords) && !Mentions(low, HistoricalWords))
  {
    var low := Lower(sentence);
    MentionsIff(low);
    if Contains(low, "is") || Contains(low, "was") || Contains(low, "are") || Contains(low, "were") then Descriptive
    else if Contains(low, "used") || Contains(low, "apply") || Contains(low, "application") then Usage
    else if Contains(low, "develop") || Contains(low, "create") || Contains(low, "invent") then Historical
    else General
  }

  /** The keyword lists spelled out. */
  lemma MentionsIff(low: String)
    ensures Mentions(low, DescriptiveWords) <==>
      Contains(low, "is") || Contains(low, "was") || Contains(low, "are") || Contains(low, "were")
    ensures Mentions(low, UsageWords) <==>
      Contains(low, "used") || Contains(low, "apply") || Contains(low, "application")
    ensures Mentions(low, HistoricalWords) <==>
      Contains(low, "develop") || Contains(low, "create") || Contains(low, "invent")
  {
    assert DescriptiveWords[0] == "is" && DescriptiveWords[1] == "was";
    assert DescriptiveWords[2] == "are" && DescriptiveWords[3] == "were";
    assert UsageWords[0] == "used" && UsageWords[1] == "apply" && UsageWords[2] == "application";
    assert HistoricalWords[0] == "develop" && HistoricalWords[1] == "create" && HistoricalWords[2] == "invent";
  }

  /** The question text for slot `i` built from `sentence`: a fixed
      question about the title for each keyword kind, and the template of
      slot `i` otherwise. */
  function QuestionText(title: String, sentence: String, i: nat): (r: String)
    ensures Contains(r, title)
    ensures Classify(sentence) == Descriptive ==> r == "According to the article, what is true about " + title + "?"
    ensures Classify(sentence) == Usage ==> r == "How is " + title + " typically used or applied?"
    ensures Classify(sentence) == Historical ==>
      r == "Regarding the development of " + title + ", what does the article mention?"
    ensures Classify(sentence) == General ==> r == FromTemplate(i % |Templates|, title)
  {
    match Classify(sentence)
    case Descriptive =>
      ContainsMiddle("According to the article, what is true about ", title, "?");
      "According to the article, what is true about " + title + "?"
    case Usage =>
      ContainsMiddle("How is ", title, " typically used or applied?");
      "How is " + title + " typically used or applied?"
    case Historical =>
      ContainsMiddle("Regarding the development of ", title, ", what does the article mention?");
      "Regarding the development of " + title + ", what does the article mention?"
    case General => FromTemplate(i % |Templates|, title)
  }

  /** `" ".join(sentence.split()[:12]) + ("..." if len(sentence.split()) > 12 else "")`. */
  function CorrectAnswer(sentence: String): String
  {
    JoinSpace(Take(Words(sentence), 12)) + (if |Words(sentence)| > 12 then "..." else "")
  }

  /** Key-term distractors are used for slot `i` exactly when this holds. */
  predicate UsesKeyTerms(keyTerms: seq<String>, i: nat) {
    i < |keyTerms| && |keyTerms| > 3
  }

  /** Distractors naming the key terms at offsets `i`, `i + 1`, `i + 2`,
      wrapping around. */
  function KeyTermDistractors(keyTerms: seq<String>, i: nat): seq<String>
    requires |keyTerms| > 0
  {
    var n := |keyTerms|;
    [ "It primarily focuses on " + keyTerms[i % n] + " and related technologies",
      "It is mainly associated with " + keyTerms[(i + 1) % n] + " research",
      "It represents advances in " + keyTerms[(i + 2) % n] + " methodology" ]
  }

  /** The fixed distractors, naming the lower-cased title. */
  function TitleDistractors(title: String): seq<String>
  {
    [ "It is an outdated approach to " + Lower(title) + " implementation",
      "It represents theoretical concepts not yet practically applied",
      "It focuses solely on commercial applications of " + Lower(title) ]
  }

  /** The three wrong options of slot `i` when sentence `i` exists. */
  function Distractors(title: String, keyTerms: seq<String>, i: nat): (r: seq<String>)
    ensures |r| == 3
  {
    if UsesKeyTerms(keyTerms, i) then KeyTermDistractors(keyTerms, i) else TitleDistractors(title)
  }

  /** Slot `i` when sentence `i` exists. */
  function ContentQuestion(title: String, sentence: String, keyTerms: seq<String>, i: nat): (q: Question)
    ensures WellFormed(q)
  {
    var correct := CorrectAnswer(sentence);
    var wrong := Distractors(title, keyTerms, i);
    Question(QuestionText(title, sentence, i), [correct] + wrong, correct)
  }

  /** `key_terms[k] if len(key_terms) > k else default`. */
  function KeyTermOr(keyTerms: seq<String>, k: nat, default: String): String
  {
    if k < |keyTerms| then keyTerms[k] else default
  }

  /** The templated options when there are key terms. */
  function KeyTermOptions(keyTerms: seq<String>): seq<String>
    requires |keyTerms| > 0
  {
    [ "It involves " + keyTerms[0] + " and related processes",
      "It focuses on " + KeyTermOr(keyTerms, 1, "technical aspects"),
      "It emphasizes " + KeyTermOr(keyTerms, 2, "practical applications"),
      "It represents " + KeyTermOr(keyTerms, 3, "innovative approaches") ]
  }

  /** The templated options when there are no key terms. */
  function TitleOptions(title: String): seq<String>
  {
    [ "A fundamental aspect of " + title,
      "An advanced feature of " + title,
      "A basic component of " + title,
      "A specialized area of " + title ]
  }

  /** The options of a templated slot. */
  function TemplateOptions(title: String, keyTerms: seq<String>): (r: seq<String>)
    ensures |r| == 4
  {
    if |keyTerms| > 0 then KeyTermOptions(keyTerms) else TitleOptions(title)
  }

  /** Slot `i` when there is no sentence `i`. */
  function TemplateQuestion(title: String, keyTerms: seq<String>, i: nat): (q: Question)
    ensures WellFormed(q)
  {
    var options := TemplateOptions(title, keyTerms);
    Question(FromTemplate(i % |Templates|, title), options, options[0])
  }

  /** The question of slot `i`: from sentence `i` when there is one (its
      answer leads, the distractors follow), otherwise from the templates. */
  function Slot(title: String, sentences: seq<String>, keyTerms: seq<String>, i: nat): (q: Question)
    ensures WellFormed(q) && q.answer in q.options
    ensures Contains(q.question, title)
    ensures i < |sentences| ==>
      && q.question == QuestionText(title, sentences[i], i)
      && q.answer == CorrectAnswer(sentences[i]) && q.options[1..] == Distractors(title, keyTerms, i)
    ensures i >= |sentences| ==>
      q.question == FromTemplate(i % |Templates|, title) && q.options == TemplateOptions(title, keyTerms)
  {
    if i < |sentences| then ContentQuestion(title, sentences[i], keyTerms, i)
    else TemplateQuestion(title, keyTerms, i)
  }

  /** The `questions` of the fallback generator, `for i in range(qcount)`:
      exactly `count` of them, whatever the sentences and key terms, each
      well formed. */
  function FallbackQuestions(title: String, sentences: seq<String>, keyTerms: seq<String>, count: nat): (qs: seq<Question>)
    ensures |qs| == count
    ensures forall k :: 0 <= k < count ==> qs[k] == Slot(title, sentences, keyTerms, k)
    ensures forall k :: 0 <= k < count ==> WellFormed(qs[k])
  {
    seq(count, k requires 0 <= k < count => Slot(title, sentences, keyTerms, k))
  }

  /** The answer of a content slot re-splits into the sentence's first
      twelve words, the twelfth carrying the ellipsis when the sentence is
      longer. */
  lemma AnswerWords(sentence: String)
    ensures var ws := Words(sentence);
      && (|ws| <= 12 ==> Words(CorrectAnswer(sentence)) == ws)
      && (|ws| > 12 ==> Words(CorrectAnswer(sentence)) == ws[..11] + [ws[11] + "..."])
  {
    var ws := Words(sentence);
    var first := Take(ws, 12);
    assert forall w :: w in first ==> w in ws;
    if |ws| <= 12 {
      assert CorrectAnswer(sentence) == JoinSpace(first) + "";
      assert JoinSpace(first) + "" == JoinSpace(first);
      WordsJoinSpace(first);
    } else {
      assert CorrectAnswer(sentence) == JoinSpace(first) + "...";
      EllipsisWords(first);
      assert first[..11] == ws[..11] && first[11] == ws[11];
    }
  }

  /** Twelve words joined, with "..." appended, re-split into the first
      eleven and the twelfth carrying the ellipsis. */
  lemma EllipsisWords(first: seq<String>)
    requires |first| == 12 && forall w :: w in first ==> IsWord(w)
    ensures Words(JoinSpace(first) + "...") == first[..11] + [first[11] + "..."]
  {
    var last := first[11] + "...";
    var ws' := first[..11] + [last];
    JoinSpaceAppend(first, "...");
    assert first[11] in first;
    EllipsisWord(first[11]);
    assert forall w :: w in ws' ==> w == last || w in first;
    WordsJoinSpace(ws');
  }

  /** A word with "..." appended is still a word. */
  lemma EllipsisWord(w: String)
    requires IsWord(w)
    ensures IsWord(w + "...")
  {
    var last := w + "...";
    forall j | 0 <= j < |last| ensures !IsSpace(last[j]) {
      if j < |w| { assert last[j] == w[j]; }
    }
  }

  predicate EndsWithEllipsis(a: String) {
    |a| >= 3 && a[|a| - 3..] == "..."
  }

  /** A sentence of at most twelve words without '.' gives an answer
      without '.'. */
  lemma ShortAnswerLacksDot(sentence: String)
    requires '.' !in sentence && |Words(sentence)| <= 12
    ensures '.' !in CorrectAnswer(sentence)
  {
    var ws := Words(sentence);
    WordsLack(sentence, '.');
    assert forall w :: w in Take(ws, 12) ==> w in ws;
    JoinLacks(Take(ws, 12), " ", '.');
  }

  /** A string ending in "..." has a '.'. */
  lemma EllipsisHasDot(a: String)
    requires EndsWithEllipsis(a)
    ensures '.' in a
  {
    assert a[|a| - 3..][2] == a[|a| - 1];
  }

  /** For a sentence as the segmenter yields it (it holds no '.'), the
      answer ends in "..." exactly when the sentence has more than twelve
      words. */
  lemma EllipsisIffLong(sentence: String)
    requires '.' !in sentence
    ensures EndsWithEllipsis(CorrectAnswer(sentence)) <==> |Words(sentence)| > 12
  {
    var joined := JoinSpace(Take(Words(sentence), 12));
    if |Words(sentence)| <= 12 {
      ShortAnswerLacksDot(sentence);
      if EndsWithEllipsis(CorrectAnswer(sentence)) {
        EllipsisHasDot(CorrectAnswer(sentence));
      }
    } else {
      assert CorrectAnswer(sentence) == joined + "...";
      assert (joined + "...")[|joined|..] == "...";
    }
  }

  /** The key-term distractors name the key terms at offsets `i`, `i + 1`
      and `i + 2`, wrapping around. */
  lemma KeyTermDistractorsName(keyTerms: seq<String>, i: nat)
    requires |keyTerms| > 0
    ensures var r := KeyTermDistractors(keyTerms, i); var n := |keyTerms|;
      && Contains(r[0], keyTerms[i % n])
      && Contains(r[1], keyTerms[(i + 1) % n])
      && Contains(r[2], keyTerms[(i + 2) % n])
  {
    var n := |keyTerms|;
    ContainsMiddle("It primarily focuses on ", keyTerms[i % n], " and related technologies");
    ContainsMiddle("It is mainly associated with ", keyTerms[(i + 1) % n], " research");
    ContainsMiddle("It represents advances in ", keyTerms[(i + 2) % n], " methodology");
  }

  /** When key-term distractors are used and the key terms are free of
      duplicates, the three terms named are different ones. */
  lemma {:induction false} KeyTermDistractorsDiffer(keyTerms: seq<String>, i: nat)
    requires UsesKeyTerms(keyTerms, i) && Distinct(keyTerms)
    ensures var n := |keyTerms|;
      && i % n == i
      && keyTerms[i] != keyTerms[(i + 1) % n]
      && keyTerms[i] != keyTerms[(i + 2) % n]
      && keyTerms[(i + 1) % n] != keyTerms[(i + 2) % n]
  {
    var n := |keyTerms|;
    if i + 2 < n {
      assert (i + 1) % n == i + 1 && (i + 2) % n == i + 2;
    } else if i + 1 < n {
      assert (i + 1) % n == i + 1 && (i + 2) % n == 0;
    } else {
      assert (i + 1) % n == 0 && (i + 2) % n == 1;
    }
  }

  /** Two of the fixed distractors name the lower-cased title. */
  lemma TitleDistractorsName(title: String)
    ensures Contains(TitleDistractors(title)[0], Lower(title))
    ensures Contains(TitleDistractors(title)[2], Lower(title))
  {
    ContainsMiddle("It is an outdated approach to ", Lower(title), " implementation");
    ContainsEnd("It focuses solely on commercial applications of ", Lower(title));
  }

  /** The distractors come from the key terms exactly when `i < len(key_terms)`
      and there are more than three of them: only then does the first
      distractor start "It primarily focuses on ". */
  lemma DistractorChoice(title: String, keyTerms: seq<String>, i: nat)
    ensures StartsWith(Distractors(title, keyTerms, i)[0], "It primarily focuses on ") <==> UsesKeyTerms(keyTerms, i)
  {
    if !UsesKeyTerms(keyTerms, i) {
      var o := Distractors(title, keyTerms, i)[0];
      assert o == "It is an outdated approach to " + Lower(title) + " implementation";
      assert o[3] == 'i';
    }
  }

  /** With key terms, the templated options name the first four of them,
      as far as there are that many. */
  lemma TemplateOptionsNameTerms(title: String, keyTerms: seq<String>)
    requires |keyTerms| > 0
    ensures forall k :: 0 <= k < 4 && k < |keyTerms| ==> Contains(TemplateOptions(title, keyTerms)[k], keyTerms[k])
  {
    ContainsMiddle("It involves ", keyTerms[0], " and related processes");
    if |keyTerms| > 1 { ContainsEnd("It focuses on ", keyTerms[1]); }
    if |keyTerms| > 2 { ContainsEnd("It emphasizes ", keyTerms[2]); }
    if |keyTerms| > 3 { ContainsEnd("It represents ", keyTerms[3]); }
  }

  /** Without key terms, every templated option names the title. */
  lemma TemplateOptionsNameTitle(title: String)
    ensures forall k :: 0 <= k < 4 ==> Contains(TemplateOptions(title, [])[k], title)
  {
    assert TemplateOptions(title, []) == TitleOptions(title);
    ContainsEnd("A fundamental aspect of ", title);
    ContainsEnd("An advanced feature of ", title);
    ContainsEnd("A basic component of ", title);
    ContainsEnd("A specialized area of ", title);
  }

  /** The classifier matches substrings, not words: "This" has no keyword
      as a word, yet it is classified as descriptive because "this"
      contains "is". */
  lemma ClassifierMatchesSubstrings()
    ensures Classify("This") == Descriptive
  {
    assert Lower("This") == "this";
    assert OccursAt("this", "is", 2);
    ContainsIff("this", "is");
  }
}

=== FILE: quiz_json.dfy ===
/**
 The JSON shape of a generated quiz: `{"title", "summary", "study_summary",
 "questions": [{"question", "options", "answer"}, ...]}`.
*/
module QuizJson {
  import opened Wrappers
  import opened Text
  import opened Json
  import opened Questions

  /** A quiz as the fallback generator builds it. */
  datatype Quiz = Quiz(title: String, summary: String, studySummary: String, questions: seq<Question>)

  /** A question as a JSON object. */
  function QuestionJson(q: Question): (r: Json)
    ensures r.JObj? && r.fields.Keys == {"question", "options", "answer"}
  {
    JObj(map["question" := JStr(q.question), "options" := Strings(q.options), "answer" := JStr(q.answer)])
  }

  /** The question a JSON value describes, if it has the three fields with
      the right types. */
  function QuestionOf(v: Json): Option<Question>
  {
    if !v.JObj? then None
    else
      var f := v.fields;
      if "question" !in f || "options" !in f || "answer" !in f then None
      else if !f["question"].JStr? || !f["options"].JArr? || !f["answer"].JStr? then None
      else match StringsOf(f["options"].items)
        case None => None
        case Some(options) => Some(Question(f["question"].s, options, f["answer"].s))
  }

  /** Decoding an encoded question gives it back. */
  lemma QuestionRoundTrip(q: Question)
    ensures QuestionOf(QuestionJson(q)) == Some(q)
  {
    StringsRoundTrip(q.options);
  }

  /** A list of questions as a JSON array. */
  function QuestionsJson(qs: seq<Question>): (r: Json)
    ensures r.JArr? && |r.items| == |qs|
    ensures forall i :: 0 <= i < |qs| ==> r.items[i] == QuestionJson(qs[i])
  {
    JArr(seq(|qs|, i requires 0 <= i < |qs| => QuestionJson(qs[i])))
  }

  /** The questions of a JSON array, if every item is one. */
  function QuestionsOf(items: seq<Json>): (r: Option<seq<Question>>)
    ensures r.Some? ==> |r.value| == |items|
  {
    if |items| == 0 then Some([])
    else match QuestionOf(items[0])
      case None => None
      case Some(q) =>
        match QuestionsOf(items[1..])
        case None => None
        case Some(rest) => Some([q] + rest)
  }

  /** Decoding an encoded list of questions gives the list back. */
  lemma {:induction false} QuestionsRoundTrip(qs: seq<Question>)
    ensures QuestionsOf(QuestionsJson(qs).items) == Some(qs)
    decreases |qs|
  {
    if |qs| > 0 {
      var items := QuestionsJson(qs).items;
      assert items[1..] == QuestionsJson(qs[1..]).items;
      QuestionsRoundTrip(qs[1..]);
      QuestionRoundTrip(qs[0]);
      assert qs == [qs[0]] + qs[1..];
    }
  }

  /** The quiz object the fallback generator returns. */
  function QuizJsonOf(z: Quiz): (r: Json)
    ensures r.JObj? && r.fields.Keys == {"title", "summary", "study_summary", "questions"}
  {
    JObj(map[
      "title" := JStr(z.title),
      "summary" := JStr(z.summary),
      "study_summary" := JStr(z.studySummary),
      "questions" := QuestionsJson(z.questions)])
  }

  /** The quiz a JSON value describes, if it has the four fields with the
      right types. */
  function QuizOf(v: Json): Option<Quiz>
  {
    if !v.JObj? then None
    else
      var f := v.fields;
      if "title" !in f || "summary" !in f || "study_summary" !in f || "questions" !in f then None
      else if !f["title"].JStr? || !f["summary"].JStr? || !f["study_summary"].JStr? || !f["questions"].JArr? then None
      else match QuestionsOf(f["questions"].items)
        case None => None
        case Some(qs) => Some(Quiz(f["title"].s, f["summary"].s, f["study_summary"].s, qs))
  }

  /** Decoding an encoded quiz gives it back. */
  lemma QuizRoundTrip(z: Quiz)
    ensures QuizOf(QuizJsonOf(z)) == Some(z)
  {
    QuestionsRoundTrip(z.questions);
  }
}

=== FILE: score.dfy ===
/**
 Answer selection and scoring in the quiz view of the front end.
*/
module Score {
  import opened Wrappers
  import opened Text

  /** A question as the front end receives it; `answer` is `undefined`
      when the object lacks the field. */
  datatype FrontQuestion = FrontQuestion(question: String, options: seq<String>, answer: Option<String>)

  /** The selected answers: question index to the option chosen. */
  type Selection = map<nat, String>

  /** `selectedAnswers[i]`: `undefined` for a question not yet answered. */
  function Lookup(sel: Selection, i: nat): (r: Option<String>)
    ensures r.Some? <==> i in sel
  {
    if i in sel then Some(sel[i]) else None
  }

  /** `handleOptionSelect(i, option)`: `{...prev, [i]: option}`. */
  function SelectOption(sel: Selection, i: nat, option: String): (r: Selection)
    ensures Lookup(r, i) == Some(option)
    ensures forall j :: j != i ==> Lookup(r, j) == Lookup(sel, j)
    ensures r.Keys == sel.Keys + {i}
  {
    sel[i := option]
  }

  /** A later selection for the same question replaces the earlier one. */
  lemma LaterSelectionReplaces(sel: Selection, i: nat, first: String, second: String)
    ensures SelectOption(SelectOption(sel, i, first), i, second) == SelectOption(sel, i, second)
  {
  }

  /** `selectedAnswers[i] === q.answer`. Strict equality makes an
      unanswered question whose object lacks `answer` count as correct. */
  predicate IsCorrect(sel: Selection, qs: seq<FrontQuestion>, i: nat)
    requires i < |qs|
  {
    Lookup(sel, i) == qs[i].answer
  }

  /** The per-question `isCorrect` flags of the answer view. */
  function Flags(sel: Selection, qs: seq<FrontQuestion>): (r: seq<bool>)
    ensures |r| == |qs|
    ensures forall i :: 0 <= i < |qs| ==> r[i] == IsCorrect(sel, qs, i)
  {
    seq(|qs|, i requires 0 <= i < |qs| => IsCorrect(sel, qs, i))
  }

  /** The number of `true` flags among the first `n`. */
  function CountTrue(flags: seq<bool>, n: nat): nat
    requires n <= |flags|
  {
    if n == 0 then 0 else CountTrue(flags, n - 1) + (if flags[n - 1] then 1 else 0)
  }

  /** The indices below `n` whose selection matches the answer. */
  function CorrectIndices(sel: Selection, qs: seq<FrontQuestion>, n: nat): set<nat>
    requires n <= |qs|
  {
    set i: nat | i < n && IsCorrect(sel, qs, i)
  }

  /** Counting the flags counts the correct indices. */
  lemma {:induction false} CountTrueIsCorrectIndices(sel: Selection, qs: seq<FrontQuestion>, n: nat)
    requires n <= |qs|
    ensures CountTrue(Flags(sel, qs), n) == |CorrectIndices(sel, qs, n)|
  {
    if n > 0 {
      CountTrueIsCorrectIndices(sel, qs, n - 1);
      var before := CorrectIndices(sel, qs, n - 1);
      CorrectIndicesStep(sel, qs, n);
      assert Flags(sel, qs)[n - 1] == IsCorrect(sel, qs, n - 1);
      if IsCorrect(sel, qs, n - 1) {
        assert n - 1 !in before;
      }
    }
  }

  /** The correct indices below `n` are those below `n - 1`, and `n - 1`
      when it is correct. */
  lemma CorrectIndicesStep(sel: Selection, qs: seq<FrontQuestion>, n: nat)
    requires 0 < n <= |qs|
    ensures CorrectIndices(sel, qs, n) ==
      CorrectIndices(sel, qs, n - 1) + (if IsCorrect(sel, qs, n - 1) then {n - 1} else {})
  {
  }

  /** `getScore()`: the number `0` when the quiz has no `questions`,
      otherwise the correct count and the number of questions. */
  datatype Score = NoQuestions | Tally(correct: nat, total: nat)

  /** `getScore()`. */
  method GetScore(questions: Option<seq<FrontQuestion>>, sel: Selection) returns (s: Score)
    ensures questions.None? <==> s == NoQuestions
    ensures questions.Some? ==> s.Tally? && s.total == |questions.value|
    ensures questions.Some? ==> s.correct == |CorrectIndices(sel, questions.value, |questions.value|)|
    ensures questions.Some? ==> s.correct == CountTrue(Flags(sel, questions.value), |questions.value|)
    ensures questions.Some? ==> s.correct <= s.total
  {
    if questions.None? {
      return NoQuestions;
    }
    var qs := questions.value;
    var correct := 0;
    var i := 0;
    while i < |qs|
      invariant 0 <= i <= |qs|
      invariant correct == CountTrue(Flags(sel, qs), i)
      invariant correct <= i
    {
      if Lookup(sel, i) == qs[i].answer {
        correct := correct + 1;
      }
      i := i + 1;
    }
    CountTrueIsCorrectIndices(sel, qs, |qs|);
    return Tally(correct, |qs|);
  }

  /** Choosing a question's answer flags that question correct and leaves
      every other flag as it was. */
  lemma SelectingAnswerFlags(sel: Selection, qs: seq<FrontQuestion>, i: nat)
    requires i < |qs| && qs[i].answer.Some?
    ensures var after := Flags(SelectOption(sel, i, qs[i].answer.value), qs);
      && after[i]
      && forall j :: 0 <= j < |qs| && j != i ==> after[j] == Flags(sel, qs)[j]
  {
  }

  /** With nothing selected, exactly the questions lacking an answer count
      as correct. */
  lemma NothingSelected(qs: seq<FrontQuestion>)
    ensures forall i :: 0 <= i < |qs| ==> (Flags(map[], qs)[i] <==> qs[i].answer.None?)
  {
  }
}

=== FILE: segmenter.dfy ===
/**
 The segmentation step of the fallback generator: paragraphs are the
 blank-line separated blocks of the article, sentences the '.'-separated
 pieces, each stripped and filtered by length.
 */
module Segmenter {
  import opened Text

  /** Piece `k` of `pieces`, once stripped, is `x` and has a length `keep` admits. */
  predicate KeptFrom(pieces: seq<String>, keep: nat -> bool, k: int, x: String) {
    0 <= k < |pieces| && Strip(pieces[k]) == x && keep(|x|)
  }

  /** Some piece of `pieces`, once stripped, is `x` and has a length `keep` admits. */
  ghost predicate IsKept(pieces: seq<String>, keep: nat -> bool, x: String) {
    exists k :: KeptFrom(pieces, keep, k, x)
  }

  /** `[p.strip() for p in pieces if keep(len(p.strip()))]`. */
  function KeepStripped(pieces: seq<String>, keep: nat -> bool): (r: seq<String>)
    ensures |r| <= |pieces|
    ensures forall i :: 0 <= i < |r| ==> keep(|r[i]|) && IsStripped(r[i])
    decreases |pieces|
  {
    if |pieces| == 0 then []
    else
      var head := Strip(pieces[0]);
      var rest := KeepStripped(pieces[1..], keep);
      if keep(|head|) then
        KeptCons(head, rest, keep);
        [head] + rest
      else rest
  }

  /** A kept stripped string in front of kept stripped strings. */
  lemma KeptCons(head: String, rest: seq<String>, keep: nat -> bool)
    requires keep(|head|) && IsStripped(head)
    requires forall i :: 0 <= i < |rest| ==> keep(|rest[i]|) && IsStripped(rest[i])
    ensures forall i :: 0 <= i < |[head] + rest| ==> keep(|([head] + rest)[i]|) && IsStripped(([head] + rest)[i])
  {
    var r := [head] + rest;
    assert forall i :: 1 <= i < |r| ==> r[i] == rest[i - 1];
  }

  /** A string is kept exactly when it is some piece, stripped, of an
      admitted length. */
  lemma {:induction false} KeepStrippedMembers(pieces: seq<String>, keep: nat -> bool, x: String)
    ensures x in KeepStripped(pieces, keep) <==> IsKept(pieces, keep, x)
    decreases |pieces|
  {
    if |pieces| == 0 {
      return;
    }
    var head := Strip(pieces[0]);
    var rest := KeepStripped(pieces[1..], keep);
    assert KeepStripped(pieces, keep) == if keep(|head|) then [head] + rest else rest;
    KeepStrippedMembers(pieces[1..], keep, x);
    if x in KeepStripped(pieces, keep) {
      if keep(|head|) && x == head {
        assert KeptFrom(pieces, keep, 0, x);
      } else {
        assert x in rest;
        var k :| KeptFrom(pieces[1..], keep, k, x);
        assert pieces[1..][k] == pieces[k + 1];
        assert KeptFrom(pieces, keep, k + 1, x);
      }
    }
    if exists k :: KeptFrom(pieces, keep, k, x) {
      var k :| KeptFrom(pieces, keep, k, x);
      if k > 0 {
        assert pieces[1..][k - 1] == pieces[k];
        assert KeptFrom(pieces[1..], keep, k - 1, x);
      }
    }
  }

  /** The pieces are kept in order: keeping from `a + b` keeps from `a`,
      then from `b`. */
  lemma {:induction false} KeepStrippedAppend(a: seq<String>, b: seq<String>, keep: nat -> bool)
    ensures KeepStripped(a + b, keep) == KeepStripped(a, keep) + KeepStripped(b, keep)
    decreases |a|
  {
    if |a| == 0 {
      assert a + b == b;
    } else {
      assert (a + b)[0] == a[0];
      assert (a + b)[1..] == a[1..] + b;
      KeepStrippedAppend(a[1..], b, keep);
    }
  }

  /** One piece is kept, stripped, exactly when its stripped length is
      admitted. */
  lemma KeepStrippedOne(x: String, keep: nat -> bool)
    ensures KeepStripped([x], keep) == if keep(|Strip(x)|) then [Strip(x)] else []
  {
    assert [x][1..] == [];
  }

  /** Every stripped piece keeps the pieces' freedom from a character. */
  lemma KeepStrippedLacks(pieces: seq<String>, keep: nat -> bool, c: char)
    requires forall k :: 0 <= k < |pieces| ==> c !in pieces[k]
    ensures forall x :: x in KeepStripped(pieces, keep) ==> c !in x
  {
    forall x | x in KeepStripped(pieces, keep) ensures c !in x {
      KeepStrippedMembers(pieces, keep, x);
      var k :| KeptFrom(pieces, keep, k, x);
      StripKeepsOut(pieces[k], c);
    }
  }

  /** The paragraph filter of the fallback generator: more than 50 characters. */
  predicate LongParagraph(n: nat) { n > 50 }

  /** The sentence filter: more than 20 and fewer than 200 characters. */
  predicate SentenceLength(n: nat) { 20 < n < 200 }

  /** `[p.strip() for p in text.split("\n\n") if p.strip() and len(p.strip()) > 50]`. */
  function Paragraphs(text: String): (r: seq<String>)
    ensures forall i :: 0 <= i < |r| ==> |r[i]| > 50 && IsStripped(r[i])
    ensures forall i :: 0 <= i < |r| ==> !Contains(r[i], "\n\n")
    ensures forall x :: x in r <==> IsKept(Split(text, "\n\n"), LongParagraph, x)
  {
    ParagraphsLackBlankLine(text);
    ParagraphsMembers(text);
    KeepStripped(Split(text, "\n\n"), LongParagraph)
  }

  lemma ParagraphsMembers(text: String)
    ensures forall x ::
      (x in KeepStripped(Split(text, "\n\n"), LongParagraph) <==> IsKept(Split(text, "\n\n"), LongParagraph, x))
  {
    forall x {
      KeepStrippedMembers(Split(text, "\n\n"), LongParagraph, x);
    }
  }

  lemma ParagraphsLackBlankLine(text: String)
    ensures forall p :: p in KeepStripped(Split(text, "\n\n"), LongParagraph) ==> !Contains(p, "\n\n")
  {
    var pieces := Split(text, "\n\n");
    SplitPiecesLackSeparator(text, "\n\n");
    forall x | x in KeepStripped(pieces, LongParagraph) ensures !Contains(x, "\n\n") {
      KeepStrippedMembers(pieces, LongParagraph, x);
      var k :| KeptFrom(pieces, LongParagraph, k, x);
      StripLacks(pieces[k], "\n\n");
    }
  }

  /** `[s.strip() for s in text.split('.') if 20 < len(s.strip()) < 200]`. */
  function Sentences(text: String): (r: seq<String>)
    ensures forall i :: 0 <= i < |r| ==> 20 < |r[i]| < 200 && IsStripped(r[i])
    ensures forall i :: 0 <= i < |r| ==> '.' !in r[i]
    ensures forall x :: x in r <==> IsKept(Split(text, "."), SentenceLength, x)
  {
    var pieces := Split(text, ".");
    var r := KeepStripped(pieces, SentenceLength);
    SplitPiecesLackSeparator(text, ".");
    forall k | 0 <= k < |pieces| ensures '.' !in pieces[k] {
      assert pieces[k] in pieces;
      ContainsChar(pieces[k], '.');
    }
    KeepStrippedLacks(pieces, SentenceLength, '.');
    forall i | 0 <= i < |r| ensures '.' !in r[i] {
      assert r[i] in r;
    }
    forall x ensures x in r <==> IsKept(pieces, SentenceLength, x) {
      KeepStrippedMembers(pieces, SentenceLength, x);
    }
    r
  }

  /** Empty article text has neither paragraphs nor sentences. */
  lemma EmptyTextHasNoSegments()
    ensures Paragraphs("") == [] && Sentences("") == []
  {
    assert Split("", "\n\n") == [""];
    assert Split("", ".") == [""];
    assert Strip("") == "";
    assert KeepStripped([""], LongParagraph) == [];
    assert KeepStripped([""], SentenceLength) == [];
  }
}

=== FILE: text.dfy ===
/**
 Python `str` operations the quiz generator relies on, over ASCII text:
 whitespace classes, `lower`, slicing, `in`, `split(sep)`, `sep.join`,
 `strip`, `split()` and `startswith`.
 */
module Text {
  import opened Wrappers

  type String = seq<char>

  /** `str.isspace()` on ASCII: tab, newline, vertical tab, form feed,
      carriage return, the separators 0x1C-0x1F, and space. The same class
      is what `\s` matches in a `re` pattern. */
  predicate IsSpace(c: char) {
    (9 <= c as int <= 13) || (28 <= c as int <= 31) || c == ' '
  }

  predicate IsUpper(c: char) { 'A' <= c <= 'Z' }

  predicate IsLower(c: char) { 'a' <= c <= 'z' }

  /** The `\w` class of `re` on ASCII. */
  predicate IsWordChar(c: char) {
    IsUpper(c) || IsLower(c) || ('0' <= c <= '9') || c == '_'
  }

  /** The ASCII lower case of `c`: 'A'..'Z' move up by 32, all else stays. */
  function LowerChar(c: char): (r: char)
    ensures !IsUpper(r)
    ensures IsUpper(c) ==> r as int == c as int + 32
    ensures !IsUpper(c) ==> r == c
  {
    if IsUpper(c) then (c as int + 32) as char else c
  }

  /** `s.lower()`. */
  function Lower(s: String): (r: String)
    ensures |r| == |s|
    ensures forall i :: 0 <= i < |r| ==> !IsUpper(r[i])
    ensures forall i :: 0 <= i < |s| ==>
      && (IsUpper(s[i]) ==> r[i] as int == s[i] as int + 32)
      && (!IsUpper(s[i]) ==> r[i] == s[i])
  {
    seq(|s|, i requires 0 <= i < |s| => LowerChar(s[i]))
  }

  /** `s[:n]` for a non-negative `n`. */
  function Take<T>(s: seq<T>, n: nat): (r: seq<T>)
    ensures |r| == if n < |s| then n else |s|
    ensures r <= s
  {
    if n < |s| then s[..n] else s
  }

  /** `Take` of a tail is a slice of the whole. */
  lemma TakeTail<T>(s: seq<T>, n: nat)
    requires |s| > 0
    ensures Take(s[1..], n) == s[1..if |s| <= n then |s| else n + 1]
  {
  }

  /** `Take` of at least the whole sequence is the sequence. */
  lemma TakeAll<T>(s: seq<T>, n: nat)
    requires |s| <= n
    ensures Take(s, n) == s
  {
  }

  /** `s.startswith(p)`. */
  predicate StartsWith(s: String, p: String) {
    |p| <= |s| && s[..|p|] == p
  }

  /** True when `pat` occurs in `s` at position `k`. */
  predicate OccursAt(s: String, pat: String, k: int) {
    0 <= k && k + |pat| <= |s| && s[k..k + |pat|] == pat
  }

  /** `s.find(pat)`: the first position where `pat` occurs, if any. */
  function Find(s: String, pat: String): (r: Option<nat>)
    ensures r.Some? ==> OccursAt(s, pat, r.value)
    ensures r.Some? ==> forall k :: 0 <= k < r.value ==> !OccursAt(s, pat, k)
    ensures r.None? ==> forall k :: !OccursAt(s, pat, k)
    decreases |s|
  {
    if |s| < |pat| then None
    else if s[..|pat|] == pat then Some(0)
    else
      OccursShift(s, pat);
      match Find(s[1..], pat)
      case None => None
      case Some(k) => Some(k + 1)
  }

  lemma OccursShift(s: String, pat: String)
    requires |s| > 0
    ensures forall k :: 1 <= k ==> (OccursAt(s, pat, k) <==> OccursAt(s[1..], pat, k - 1))
  {
    forall k | 1 <= k
      ensures OccursAt(s, pat, k) <==> OccursAt(s[1..], pat, k - 1)
    {
      if k + |pat| <= |s| {
        SliceOfSlice(s, 1, |s|, k - 1, k - 1 + |pat|);
      }
    }
  }

  /** A first occurrence past the start is the first occurrence in the
      tail, one position earlier. */
  lemma FindTail(s: String, pat: String, k: nat)
    requires Find(s, pat) == Some(k) && k > 0
    ensures Find(s[1..], pat) == Some(k - 1)
  {
  }

  /** A slice of a slice is a slice of the whole. */
  lemma SliceOfSlice(s: String, a: int, b: int, i: int, j: int)
    requires 0 <= a <= b <= |s| && 0 <= i <= j <= b - a
    ensures s[a..b][i..j] == s[a + i..a + j]
  {
    var u, v := s[a..b][i..j], s[a + i..a + j];
    forall n | 0 <= n < |u| ensures u[n] == v[n] {
    }
  }

  /** `pat in s` for two strings: substring containment. */
  predicate Contains(s: String, pat: String) {
    Find(s, pat).Some?
  }

  lemma ContainsIff(s: String, pat: String)
    ensures Contains(s, pat) <==> exists k :: OccursAt(s, pat, k)
  {
    if Contains(s, pat) {
      assert OccursAt(s, pat, Find(s, pat).value);
    }
  }

  /** `s.split(sep)` for a non-empty separator: the pieces between
      non-overlapping occurrences of `sep`, found left to right. */
  function Split(s: String, sep: String): (r: seq<String>)
    requires |sep| > 0
    ensures |r| >= 1
    decreases |s|
  {
    match Find(s, sep)
    case None => [s]
    case Some(k) => [s[..k]] + Split(s[k + |sep|..], sep)
  }

  /** `sep.join(ps)`. */
  function Join(ps: seq<String>, sep: String): String
  {
    if |ps| == 0 then []
    else if |ps| == 1 then ps[0]
    else ps[0] + sep + Join(ps[1..], sep)
  }

  /** Every piece occurs in the joined string. */
  lemma {:induction false} JoinContains(ps: seq<String>, sep: String, x: String)
    requires x in ps
    ensures Contains(Join(ps, sep), x)
    decreases |ps|
  {
    if |ps| == 1 {
      ContainsMiddle("", x, "");
      assert "" + x + "" == x;
    } else if x == ps[0] {
      ContainsMiddle("", x, sep + Join(ps[1..], sep));
      assert "" + x + (sep + Join(ps[1..], sep)) == Join(ps, sep);
    } else {
      var rest := Join(ps[1..], sep);
      var s := Join(ps, sep);
      JoinContains(ps[1..], sep, x);
      var k := |ps[0] + sep|;
      assert s[k..|s|] == rest;
      ContainsSlice(s, x, k, |s|);
    }
  }

  lemma {:induction false} JoinSplit(s: String, sep: String)
    requires |sep| > 0
    ensures Join(Split(s, sep), sep) == s
    decreases |s|
  {
    match Find(s, sep)
    case None =>
    case Some(k) =>
      var rest := s[k + |sep|..];
      SplitAt(s, sep, k);
      JoinSplit(rest, sep);
      JoinCons(s[..k], Split(rest, sep), sep);
  }

  /** One step of `Split` at the first occurrence `k` of the separator. */
  lemma SplitAt(s: String, sep: String, k: nat)
    requires |sep| > 0 && Find(s, sep) == Some(k)
    ensures Split(s, sep) == [s[..k]] + Split(s[k + |sep|..], sep)
    ensures s == s[..k] + sep + s[k + |sep|..]
  {
    assert OccursAt(s, sep, k);
    SliceThree(s, k, k + |sep|);
  }

  /** A sequence is its three slices around two cut points. */
  lemma SliceThree<T>(s: seq<T>, i: nat, j: nat)
    requires i <= j <= |s|
    ensures s == s[..i] + s[i..j] + s[j..]
  {
  }

  lemma JoinCons(a: String, ps: seq<String>, sep: String)
    requires |ps| >= 1
    ensures Join([a] + ps, sep) == a + sep + Join(ps, sep)
  {
    assert ([a] + ps)[1..] == ps;
  }

  /** Two pieces joined. */
  lemma JoinPair(a: String, b: String, sep: String)
    ensures Join([a, b], sep) == a + sep + b
  {
    assert [a, b] == [a] + [b];
    JoinCons(a, [b], sep);
  }

  lemma {:induction false} SplitPiecesLackSeparator(s: String, sep: String)
    requires |sep| > 0
    ensures forall p :: p in Split(s, sep) ==> !Contains(p, sep)
    decreases |s|
  {
    match Find(s, sep)
    case None =>
      NotContainsSelf(s, sep);
    case Some(k) =>
      var rest := s[k + |sep|..];
      SplitPiecesLackSeparator(rest, sep);
      forall j | OccursAt(s[..k], sep, j)
        ensures false
      {
        assert s[..k][j..j + |sep|] == s[j..j + |sep|];
        assert OccursAt(s, sep, j);
      }
      ContainsIff(s[..k], sep);
  }

  lemma NotContainsSelf(s: String, sep: String)
    requires Find(s, sep).None?
    ensures !Contains(s, sep)
  {
  }

  /** The number of occurrences of character `c` in `s`. */
  function Count(s: String, c: char): nat
  {
    if |s| == 0 then 0 else (if s[0] == c then 1 else 0) + Count(s[1..], c)
  }

  lemma {:induction false} CountAppend(a: String, b: String, c: char)
    ensures Count(a + b, c) == Count(a, c) + Count(b, c)
    decreases |a|
  {
    if |a| == 0 {
      assert a + b == b;
    } else {
      assert (a + b)[1..] == a[1..] + b;
      CountAppend(a[1..], b, c);
    }
  }

  lemma {:induction false} CountZero(s: String, c: char)
    requires c !in s
    ensures Count(s, c) == 0
    decreases |s|
  {
    if |s| > 0 {
      CountZero(s[1..], c);
    }
  }

  /** Splitting on one character yields one more piece than there are
      occurrences of it. */
  lemma {:induction false} SplitCharCount(s: String, c: char)
    ensures |Split(s, [c])| == Count(s, c) + 1
    decreases |s|
  {
    match Find(s, [c])
    case None =>
      forall i | 0 <= i < |s| ensures s[i] != c {
        assert s[i..i + 1] == [s[i]];
        assert !OccursAt(s, [c], i);
      }
      CountZero(s, c);
    case Some(k) =>
      var rest := s[k + 1..];
      SplitCharCount(rest, c);
      assert s == s[..k] + [c] + rest;
      forall i | 0 <= i < k ensures s[..k][i] != c {
        assert s[i..i + 1] == [s[i]];
        assert !OccursAt(s, [c], i);
      }
      CountZero(s[..k], c);
      CountAppend(s[..k] + [c], rest, c);
      CountAppend(s[..k], [c], c);
  }

  /** Joining pieces free of `c` with `c` and splitting on `c` gives the
      pieces back. */
  lemma {:induction false} SplitJoinChar(ps: seq<String>, c: char)
    requires |ps| >= 1
    requires forall i :: 0 <= i < |ps| ==> c !in ps[i]
    ensures Split(Join(ps, [c]), [c]) == ps
    decreases |ps|
  {
    var s := Join(ps, [c]);
    if |ps| == 1 {
      forall k | 0 <= k < |s| ensures !OccursAt(s, [c], k) {
        assert s[k..k + 1] == [s[k]];
      }
      assert Find(s, [c]).None?;
    } else {
      var rest := Join(ps[1..], [c]);
      assert s == ps[0] + [c] + rest;
      FindFirstChar(ps[0], c, rest);
      SplitJoinChar(ps[1..], c);
      assert ps == [ps[0]] + ps[1..];
    }
  }

  /** The first `c` of `a + [c] + b` when `a` has none, where the split
      on `c` cuts. */
  lemma FindFirstChar(a: String, c: char, b: String)
    requires c !in a
    ensures Find(a + [c] + b, [c]) == Some(|a|)
    ensures Split(a + [c] + b, [c]) == [a] + Split(b, [c])
  {
    var s := a + [c] + b;
    var k := |a|;
    assert OccursAt(s, [c], k) by {
      assert s[k..k + 1] == [c];
    }
    forall j | 0 <= j < k ensures !OccursAt(s, [c], j) {
      assert s[j] == a[j];
      assert s[j..j + 1] == [s[j]];
    }
    SplitAt(s, [c], k);
    assert s[..k] == a;
    assert s[k + 1..] == b;
  }

  /** `s.lstrip()`. */
  function TrimLeft(s: String): (r: String)
    ensures |r| <= |s| && r == s[|s| - |r|..]
    ensures |r| == 0 || !IsSpace(r[0])
    ensures forall i :: 0 <= i < |s| - |r| ==> IsSpace(s[i])
    decreases |s|
  {
    if |s| > 0 && IsSpace(s[0]) then
      var r := TrimLeft(s[1..]);
      TrimLeftStep(s, r);
      r
    else s
  }

  /** The contract of `TrimLeft` carries over past a leading whitespace
      character. */
  lemma TrimLeftStep(s: String, r: String)
    requires |s| > 0 && IsSpace(s[0])
    requires |r| <= |s| - 1 && r == s[1..][|s| - 1 - |r|..]
    requires forall i :: 0 <= i < |s| - 1 - |r| ==> IsSpace(s[1..][i])
    ensures r == s[|s| - |r|..]
    ensures forall i :: 0 <= i < |s| - |r| ==> IsSpace(s[i])
  {
    forall i | 0 <= i < |s| - |r| ensures IsSpace(s[i]) {
      if i > 0 {
        assert s[i] == s[1..][i - 1];
      }
    }
  }

  /** `s.rstrip()`. */
  function TrimRight(s: String): (r: String)
    ensures |r| <= |s| && r == s[..|r|]
    ensures |r| == 0 || !IsSpace(r[|r| - 1])
    ensures forall i :: |r| <= i < |s| ==> IsSpace(s[i])
    decreases |s|
  {
    if |s| > 0 && IsSpace(s[|s| - 1]) then TrimRight(s[..|s| - 1]) else s
  }

  /** A string with no whitespace at either end. */
  predicate IsStripped(s: String) {
    |s| == 0 || (!IsSpace(s[0]) && !IsSpace(s[|s| - 1]))
  }

  /** `r` sits at offset `a` of `s` with only whitespace around it. */
  predicate TrimmedAt(s: String, r: String, a: int) {
    && 0 <= a <= |s| - |r|
    && s[a..a + |r|] == r
    && (forall i :: 0 <= i < a ==> IsSpace(s[i]))
    && (forall i :: a + |r| <= i < |s| ==> IsSpace(s[i]))
  }

  /** Where `Strip(s)` starts inside `s`. */
  function StripOffset(s: String): nat
  {
    |s| - |TrimLeft(s)|
  }

  /** `s.strip()`: `s` without its leading and trailing whitespace. */
  function Strip(s: String): (r: String)
    ensures IsStripped(r)
    ensures TrimmedAt(s, r, StripOffset(s))
  {
    StripAt(s);
    TrimRight(TrimLeft(s))
  }

  /** Trimming both ends leaves a slice with only whitespace around it. */
  lemma StripAt(s: String)
    ensures TrimmedAt(s, TrimRight(TrimLeft(s)), |s| - |TrimLeft(s)|)
  {
    var t := TrimLeft(s);
    TrimmedCompose(s, t, TrimRight(t));
  }

  /** A left trim followed by a right trim of what remains. */
  lemma TrimmedCompose(s: String, t: String, r: String)
    requires |t| <= |s| && t == s[|s| - |t|..]
    requires forall i :: 0 <= i < |s| - |t| ==> IsSpace(s[i])
    requires |r| <= |t| && r == t[..|r|]
    requires forall i :: |r| <= i < |t| ==> IsSpace(t[i])
    ensures TrimmedAt(s, r, |s| - |t|)
  {
    var a := |s| - |t|;
    assert s[a..a + |r|] == r by {
      forall n | 0 <= n < |r| ensures s[a..a + |r|][n] == r[n] {
        assert r[n] == t[n] == s[a + n];
      }
    }
    forall i | a + |r| <= i < |s| ensures IsSpace(s[i]) {
      assert s[i] == t[i - a];
    }
  }

  lemma StripKeepsOut(s: String, c: char)
    requires c !in s
    ensures c !in Strip(s)
  {
    var r := Strip(s);
    var a := StripOffset(s);
    SliceLacks(s, a, a + |r|, c);
  }

  /** Stripping cannot create an occurrence of a pattern. */
  lemma StripLacks(s: String, pat: String)
    requires !Contains(s, pat)
    ensures !Contains(Strip(s), pat)
  {
    var r := Strip(s);
    var a := StripOffset(s);
    SliceKeepsLack(s, pat, a, r);
  }

  /** A slice of a string lacking a pattern lacks it too. */
  lemma SliceKeepsLack(s: String, pat: String, a: int, r: String)
    requires 0 <= a <= |s| - |r| && s[a..a + |r|] == r && !Contains(s, pat)
    ensures !Contains(r, pat)
  {
    if Contains(r, pat) {
      ContainsSlice(s, pat, a, a + |r|);
    }
  }

  /** A string contains each of its slices. */
  lemma ContainsOwnSlice(s: String, a: int, b: int)
    requires 0 <= a <= b <= |s|
    ensures Contains(s, s[a..b])
  {
    var t := s[a..b];
    assert OccursAt(s, t, a);
    ContainsIff(s, t);
  }

  lemma StripStripped(s: String)
    requires IsStripped(s)
    ensures Strip(s) == s
  {
  }

  /** The length of the run of non-whitespace characters that starts `t`. */
  function WordLength(t: String): (k: nat)
    ensures k <= |t|
    ensures forall j :: 0 <= j < k ==> !IsSpace(t[j])
    ensures k == |t| || IsSpace(t[k])
    decreases |t|
  {
    if |t| == 0 || IsSpace(t[0]) then 0 else 1 + WordLength(t[1..])
  }

  /** A word as `split()` produces it: non-empty, free of whitespace. */
  predicate IsWord(w: String) {
    |w| > 0 && forall j :: 0 <= j < |w| ==> !IsSpace(w[j])
  }

  /** `s.split()`: the maximal runs of non-whitespace characters. */
  function Words(s: String): (r: seq<String>)
    ensures forall w :: w in r ==> IsWord(w)
    decreases |s|
  {
    var t := TrimLeft(s);
    if |t| == 0 then []
    else
      var k := WordLength(t);
      assert IsWord(t[..k]);
      [t[..k]] + Words(t[k..])
  }

  /** `" ".join(ws)`. */
  function JoinSpace(ws: seq<String>): String
  {
    Join(ws, " ")
  }

  lemma TrimLeftSpace(x: String)
    ensures TrimLeft(" " + x) == TrimLeft(x)
  {
    assert (" " + x)[1..] == x;
  }

  /** Joining words with single spaces and splitting on whitespace gives the
      words back. */
  lemma {:induction false} WordsJoinSpace(ws: seq<String>)
    requires forall w :: w in ws ==> IsWord(w)
    ensures Words(JoinSpace(ws)) == ws
    decreases |ws|
  {
    if |ws| == 0 {
      assert JoinSpace(ws) == [];
    } else if |ws| == 1 {
      assert JoinSpace(ws) == ws[0];
      WordsOfWord(ws[0]);
    } else {
      var rest := JoinSpace(ws[1..]);
      calc {
        JoinSpace(ws);
        { assert ws == [ws[0]] + ws[1..]; JoinCons(ws[0], ws[1..], " "); }
        ws[0] + " " + rest;
        ws[0] + (" " + rest);
      }
      WordsCons(ws[0], rest);
      WordsJoinSpace(ws[1..]);
      assert ws == [ws[0]] + ws[1..];
    }
  }

  lemma WordsOfWord(w: String)
    requires IsWord(w)
    ensures Words(w) == [w]
  {
    assert TrimLeft(w) == w;
    WordLengthAll(w);
    assert w[..|w|] == w;
    assert w[|w|..] == [];
    assert Words([]) == [];
  }

  lemma WordsCons(w: String, rest: String)
    requires IsWord(w)
    ensures Words(w + (" " + rest)) == [w] + Words(rest)
  {
    var s := w + (" " + rest);
    assert TrimLeft(s) == s;
    WordLengthOfWord(w, " " + rest);
    assert s[..|w|] == w;
    assert s[|w|..] == " " + rest;
    TrimLeftSpace(rest);
  }

  lemma {:induction false} WordLengthAll(w: String)
    requires IsWord(w)
    ensures WordLength(w) == |w|
    decreases |w|
  {
    if |w| > 1 {
      WordLengthAll(w[1..]);
    }
  }

  lemma {:induction false} WordLengthOfWord(w: String, x: String)
    requires IsWord(w)
    requires |x| > 0 && IsSpace(x[0])
    ensures WordLength(w + x) == |w|
    decreases |w|
  {
    if |w| == 1 {
      assert (w + x)[1..] == x;
    } else {
      assert (w + x)[1..] == w[1..] + x;
      WordLengthOfWord(w[1..], x);
    }
  }

  /** The empty text has no words. */
  lemma WordsEmpty()
    ensures Words([]) == []
  {
  }

  /** A whitespace character separates the words before it from the words
      after it; with `WordsEmpty` and `WordsOfWord` this pins `split()`. */
  lemma WordsSplitAtSpace(a: String, c: char, b: String)
    requires IsSpace(c)
    ensures Words(a + [c] + b) == Words(a) + Words(b)
  {
    var y := [c] + b;
    assert a + [c] + b == a + y;
    assert y[1..] == b;
    WordsBeforeSpace(a, y);
  }

  /** `WordsSplitAtSpace` with the whitespace character opening `y`. */
  lemma {:induction false} WordsBeforeSpace(a: String, y: String)
    requires |y| > 0 && IsSpace(y[0])
    ensures Words(a + y) == Words(a) + Words(y[1..])
    decreases |a|
  {
    TrimLeftAppend(a, y);
    var t := TrimLeft(a);
    if |t| == 0 {
      assert TrimLeft(y) == TrimLeft(y[1..]);
      WordsSameTrim(a + y, y[1..]);
      assert Words(a) == [];
    } else {
      var k := WordLength(t);
      WordLengthAppend(t, y);
      WordsFirst(a);
      WordsFirst(a + y);
      var rest := t[k..];
      SplitAppend(t, y, k);
      WordsBeforeSpace(rest, y);
      var w := [t[..k]];
      assert Words(a + y) == w + Words(rest + y);
      assert Words(a) == w + Words(rest);
      ConcatAssoc(w, Words(rest), Words(y[1..]));
    }
  }

  lemma ConcatAssoc<T>(x: seq<T>, y: seq<T>, z: seq<T>)
    ensures x + (y + z) == (x + y) + z
  {
  }

  /** Cutting `x + y` inside `x`. */
  lemma SplitAppend<T>(x: seq<T>, y: seq<T>, k: nat)
    requires k <= |x|
    ensures (x + y)[..k] == x[..k] && (x + y)[k..] == x[k..] + y
  {
  }

  /** Texts with the same leading-whitespace-free rest have the same words. */
  lemma WordsSameTrim(x: String, y: String)
    requires TrimLeft(x) == TrimLeft(y)
    ensures Words(x) == Words(y)
  {
  }

  /** The first word of a text that is not all whitespace. */
  lemma WordsFirst(x: String)
    requires |TrimLeft(x)| > 0
    ensures var t := TrimLeft(x); var k := WordLength(t);
      0 < k && Words(x) == [t[..k]] + Words(t[k..])
  {
  }

  /** Leading whitespace of `x + y` is that of `x`, or runs on into `y`
      when `x` is all whitespace. */
  lemma {:induction false} TrimLeftAppend(x: String, y: String)
    ensures TrimLeft(x + y) == if |TrimLeft(x)| == 0 then TrimLeft(y) else TrimLeft(x) + y
    decreases |x|
  {
    if |x| == 0 {
      assert x + y == y;
    } else if IsSpace(x[0]) {
      assert (x + y)[1..] == x[1..] + y;
      TrimLeftAppend(x[1..], y);
    }
  }

  /** A word that ends inside `t`, or at a whitespace character opening
      `y`, is the same word of `t + y`. */
  lemma {:induction false} WordLengthAppend(t: String, y: String)
    requires WordLength(t) < |t| || |y| == 0 || IsSpace(y[0])
    ensures WordLength(t + y) == WordLength(t)
    decreases |t|
  {
    if |t| == 0 {
      assert t + y == y;
    } else if !IsSpace(t[0]) {
      assert (t + y)[1..] == t[1..] + y;
      WordLengthAppend(t[1..], y);
    }
  }

  /** Appending a space-free suffix to the joined text extends its last word. */
  lemma {:induction false} JoinSpaceAppend(ws: seq<String>, tail: String)
    requires |ws| > 0
    ensures JoinSpace(ws) + tail == JoinSpace(ws[..|ws| - 1] + [ws[|ws| - 1] + tail])
    decreases |ws|
  {
    if |ws| > 1 {
      JoinSpaceAppend(ws[1..], tail);
      var ws' := ws[..|ws| - 1] + [ws[|ws| - 1] + tail];
      assert ws'[0] == ws[0];
      assert ws'[1..] == ws[1..][..|ws| - 2] + [ws[|ws| - 1] + tail];
    }
  }

  /** An occurrence inside a slice is an occurrence in the whole string. */
  lemma ContainsSlice(s: String, pat: String, a: int, b: int)
    requires 0 <= a <= b <= |s|
    requires Contains(s[a..b], pat)
    ensures Contains(s, pat)
  {
    var k := Find(s[a..b], pat).value;
    SliceOfSlice(s, a, b, k, k + |pat|);
    assert OccursAt(s, pat, a + k);
  }

  /** For a one-character pattern, containment is membership. */
  lemma ContainsChar(s: String, c: char)
    ensures Contains(s, [c]) <==> c in s
  {
    if c in s {
      var i :| 0 <= i < |s| && s[i] == c;
      assert s[i..i + 1] == [c];
      assert OccursAt(s, [c], i);
    }
    if Contains(s, [c]) {
      var k := Find(s, [c]).value;
      assert s[k] == s[k..k + 1][0];
    }
  }

  /** No element occurs twice. */
  predicate Distinct<T(==)>(xs: seq<T>) {
    forall i, j :: 0 <= i < j < |xs| ==> xs[i] != xs[j]
  }

  /** A string occurs in any text built around it. */
  lemma ContainsMiddle(a: String, t: String, b: String)
    ensures Contains(a + t + b, t)
  {
    var s := a + t + b;
    assert s[|a|..|a| + |t|] == t;
    assert OccursAt(s, t, |a|);
  }

  /** A string ends with its suffix. */
  lemma ContainsEnd(a: String, t: String)
    ensures Contains(a + t, t)
  {
    ContainsMiddle(a, t, "");
    assert a + t + "" == a + t;
  }

  /** Every word `split()` finds is a piece of the text, so a character
      absent from the text is absent from its words. */
  lemma {:induction false} WordsLack(s: String, c: char)
    requires c !in s
    ensures forall w :: w in Words(s) ==> c !in w
    decreases |s|
  {
    var t := TrimLeft(s);
    SliceLacks(s, |s| - |t|, |s|, c);
    if |t| > 0 {
      var k := WordLength(t);
      SliceLacks(t, 0, k, c);
      SliceLacks(t, k, |t|, c);
      WordsLack(t[k..], c);
    }
  }

  lemma SliceLacks(s: String, a: int, b: int, c: char)
    requires 0 <= a <= b <= |s| && c !in s
    ensures c !in s[a..b]
  {
    forall j | 0 <= j < b - a ensures s[a..b][j] != c {
      assert s[a..b][j] == s[a + j];
    }
  }

  /** Joining pieces that lack `c` with a separator that lacks `c` gives a
      text that lacks `c`. */
  lemma {:induction false} JoinLacks(ps: seq<String>, sep: String, c: char)
    requires c !in sep
    requires forall p :: p in ps ==> c !in p
    ensures c !in Join(ps, sep)
    decreases |ps|
  {
    if |ps| > 1 {
      JoinLacks(ps[1..], sep, c);
      assert ps[0] in ps;
    } else if |ps| == 1 {
      assert ps[0] in ps;
    }
  }
}

=== FILE: wrappers.dfy ===
/** Failure-compatible wrappers shared by every module of the model. */
module Wrappers {

  /** A value that may be missing: Python's None, JavaScript's undefined, a failed call. */
  datatype Option<+T> = None | Some(value: T) {

    /** The wrapped value, or `default` when there is none. */
    function GetOr(default: T): T {
      match this
      case Some(v) => v
      case None => default
    }
  }

  /** Either a computed value or the error that an exception would carry. */
  datatype Result<+R, +E> = Success(value: R) | Failure(error: E)
}
